=== FILE: README.md ===
# Space Kids planetarium core, modelled in Dafny

Space Kids is a children's 3D solar-system web app. Almost all of it is rendering. This project models the four pieces of sequential logic inside its React components as pure Dafny state and step functions. JavaScript numbers become `real`.

- **Selection and overlay controller** (`SolarSystem.tsx`). The state is `selectedPlanet`, `isOrbitMode`, `selectedPoi`, `isLockedOverlayOpen` and `isParentalGateOpen`. The model covers the click, back, dismiss and close handlers, the on-screen guards of each control, planet placement and `selectedPlanetIndex`. Analytics `track` calls append to an event list. The module `SolarSystem` composes this controller with the parental gate into one `App` state. `SolarSystemRuns` proves invariants over runs of inputs from mount.
- **Parental gate** (`ParentalGate.tsx`). Press, release and interval ticks run over an abstract millisecond clock. Progress is clamped at 100, unlocking is one-shot at 3000 ms, release clears progress, and the progress ring has a dash offset.
- **Camera rig** (`CameraRig.tsx`). One frame picks a desired (x, z) and eases the camera toward it with `lerp`. The model proves no overshoot, exact contraction of the gap, and settling within a bounded number of frames.
- **Planet view** (`Planet3D.tsx`). The model covers drag-to-rotate with the pitch clamp, the tap-versus-drag click rule, the idle spin guard, the planet category flags and the texture fallback from `utils/assets.ts`.

Inputs are explicit:
- Each gate tick carries the clock reading `now`.
- Each camera frame carries its `delta` in seconds and the scroll offset.
- Each application input carries the time at which it happens.

Two predicates say which inputs can occur:
- `ControlRendered` gives the conditions under which the markup shows each control.
- `Enabled` adds that the locked overlay, the detail view and the gate are full-screen layers. A click cannot reach the scene or the top bar beneath them.

## Behaviour worth noting

- "Keep playing" closes the locked overlay but leaves the planet selected.
- Gate success closes the gate but leaves the planet selected.
- A planet click is handled while already in orbit. Orbit mode can therefore rest on a locked planet, with that planet's point-of-interest markers on screen (`SolarSystemRuns.OrbitOnLockedPlanetIsReachable`).
- Closing the gate does not cancel a press that is still held. The timer effect depends only on `isPressing` and `onUnlock`, so a tick after the gate is hidden still reports gate success (`SolarSystemRuns.ClosedGateStillUnlocks`), unless Rocket Lab is opened first, which unmounts the gate.
- `onUnlock` is a new closure on every controller render. A selection change while the button is held therefore restarts the hold clock (`ParentalGate.CallbackChanged`, applied in `SolarSystem.Commit`).

## Model

| member | source | states |
|---|---|---|
| Prelude.Direction | src/components/SolarSystem.tsx:41 | the direction multiplier is ±1 and is negative exactly for a right-to-left layout |
| Assets.ToLower | src/components/canvas/Planet3D.tsx:24 | lower-casing keeps the length, turns each upper-case ASCII letter into its own lower-case letter and leaves every other character alone |
| Assets.ToLowerIdempotent | src/components/canvas/Planet3D.tsx:24 | lower-casing an already lower-cased id changes nothing |
| Assets.AssetsFor | src/components/canvas/Planet3D.tsx:31-32 | the lookup always yields a table entry with a colour map: the key's own entry when present, the Mars entry otherwise |
| Assets.CloudsOnlyOnEarth | src/utils/assets.ts:14-19 | a cloud layer is found exactly for the key `earth`; an unknown key, which falls back to Mars, has none |
| Assets.RingTexturesOnlyOnRingedPlanets | src/utils/assets.ts:30-37 | ring textures are found exactly for `saturn` and `uranus` |
| Planet3D.PlanetKey | src/components/canvas/Planet3D.tsx:24 | the planet key is the lower-cased id: as long as the id, each capital replaced by its own lower-case letter, every other character kept, and already lower-case |
| Planet3D.HasAtmosphere | src/components/canvas/Planet3D.tsx:59 | a planet with an atmosphere glow is never a gas giant and never the sun |
| Planet3D.HasRings | src/components/canvas/Planet3D.tsx:60 | every ringed planet is a gas giant and has no atmosphere glow |
| Planet3D.Classify | src/components/canvas/Planet3D.tsx:58-60 | the single category tag agrees both ways with the sun test, the ring list, the gas-giant list and the atmosphere list |
| Planet3D.PlanetTextures | src/components/canvas/Planet3D.tsx:31-32 | a planet uses the entry of its lower-cased id, or the Mars entry when that id is unknown |
| Planet3D.TexturesIgnoreCase | src/components/canvas/Planet3D.tsx:24-32 | two ids that differ only in letter case get the same textures |
| Planet3D.StepLength | src/components/canvas/Planet3D.tsx:85-88 | the distance added per move is non-negative and is zero exactly when the pointer did not move |
| Planet3D.ClampPitch | src/components/canvas/Planet3D.tsx:93-96 | the pitch clamp lands in [-1, 1], is the identity inside it and saturates outside it |
| Planet3D.PointerDown | src/components/canvas/Planet3D.tsx:62-74 | pointer down starts dragging with distance 0 and this pointer as the previous sample, without turning the planet |
| Planet3D.PointerMove | src/components/canvas/Planet3D.tsx:83-100 | a move while not dragging changes nothing. While dragging, the distance grows by the Manhattan step, yaw turns by 2.5·dx, pitch becomes the clamped 2.5·dy turn within [-1, 1], and the new pointer is stored |
| Planet3D.PointerRelease | src/components/canvas/Planet3D.tsx:76-81 | pointer up, leave and out end dragging but keep the accumulated distance and the rotation |
| Planet3D.IdleFrame | src/components/canvas/Planet3D.tsx:40-56 | yaw changes only when the planet is unlocked, unselected and not dragged, and then advances by 0.1·δ. Clouds change only when the planet has a cloud layer and is unselected, and then advance by 0.14·δ. Drag state and pitch are untouched |
| Planet3D.RunKeepsViewInvariant | src/components/canvas/Planet3D.tsx:91-96 | any input sequence keeps the pitch in [-1, 1] and the drag distance non-negative |
| Planet3D.FromMountPitchIsClamped | src/components/canvas/Planet3D.tsx:27-29 | from the mounted refs, after any input sequence, the pitch is within the clamp and the distance is non-negative |
| Planet3D.MovesAccumulatePath | src/components/canvas/Planet3D.tsx:85-98 | during a session the distance equals the Manhattan length of the path walked, and the stored pointer is the latest one |
| Planet3D.PathLengthNonNegative | src/components/canvas/Planet3D.tsx:88 | a path length is never negative, so the session distance never decreases |
| Planet3D.TapVersusDrag | src/components/canvas/Planet3D.tsx:129-137 | after press, moves and release, the click selects the planet exactly when the gesture's path is shorter than 0.05 |
| CameraRig.DesiredTarget | src/components/canvas/CameraRig.tsx:31-49 | the desired depth is 6 when locked on a planet and 20 otherwise |
| CameraRig.OrbitTargetIgnoresScroll | src/components/canvas/CameraRig.tsx:37-43 | zoomed with a target index, the desired x is index·spacing·direction for every scroll offset |
| CameraRig.ZoomWithoutTargetFollowsScroll | src/components/canvas/CameraRig.tsx:37-48 | zoomed without a target index, the rig behaves exactly as when not zoomed and follows the scroll |
| CameraRig.ScrollTargetBetweenEnds | src/components/canvas/CameraRig.tsx:32-48 | for an offset in [0, 1] the overview target lies between 0 and the total distance along the direction, and hits both ends |
| CameraRig.ScrollTargetMonotone | src/components/canvas/CameraRig.tsx:47 | a larger scroll offset never moves the overview target backwards along the direction |
| CameraRig.LerpContracts | src/components/canvas/CameraRig.tsx:55-56 | for a factor in [0, 1] an easing step lands between the value and its target, and the gap shrinks to exactly (1 − t) of itself |
| CameraRig.FrameStep | src/components/canvas/CameraRig.tsx:28-57 | a frame never writes y and leaves the camera alone in the orrery view. Otherwise it moves x by 4δ and z by 3δ of their gaps to the desired target |
| CameraRig.FrameStepFixedPoint | src/components/canvas/CameraRig.tsx:55-56 | a camera already at the desired position stays there |
| CameraRig.FrameStepContracts | src/components/canvas/CameraRig.tsx:51-56 | with 4δ and 3δ in [0, 1], neither axis overshoots, and the gaps shrink to exactly (1 − 4δ) and (1 − 3δ) |
| CameraRig.GlideSignedGap | src/components/canvas/CameraRig.tsx:51-56 | after n steps the signed gap is (1 − t)ⁿ times the initial gap |
| CameraRig.GlideGap | src/components/canvas/CameraRig.tsx:51-56 | for t in [0, 1], the distance after n steps is (1 − t)ⁿ times the initial distance |
| CameraRig.PowBernoulli | src/components/canvas/CameraRig.tsx:51-56 | (1 − k)ⁿ·(1 + n·k) ≤ 1, the bound behind bounded settling |
| CameraRig.GlideConverges | src/components/canvas/CameraRig.tsx:51-56 | once n·t·ε covers the initial gap, n easing steps bring the value within ε of its target |
| CameraRig.FramesAreGlides | src/components/canvas/CameraRig.tsx:55-56 | repeated frames with unchanged inputs ease x and z independently toward the fixed target, and y is kept |
| CameraRig.CameraSettles | src/components/canvas/CameraRig.tsx:51-56 | after a target jump the camera is within ε on both axes after a frame count fixed by the jump, δ and ε |
| ParentalGate.ProgressAt | src/components/ParentalGate.tsx:26-27 | progress never exceeds 100 and is non-negative for non-negative elapsed time. It reaches 100 exactly at 3000 ms, and below that it is proportional to elapsed time |
| ParentalGate.Tick | src/components/ParentalGate.tsx:25-37 | a tick does nothing unless the button is held. It unlocks exactly when 3000 ms have passed since the press began, and unlocking ends the press with progress 0. Otherwise the press continues with progress below 100 |
| ParentalGate.Press | src/components/ParentalGate.tsx:22-46 | a press starts holding and records the start time; pressing an already held button changes nothing |
| ParentalGate.Release | src/components/ParentalGate.tsx:47-50 | a release ends the hold and clears progress to 0 whatever it was |
| ParentalGate.CallbackChanged | src/components/ParentalGate.tsx:22-44 | a new `onUnlock` restarts a held press's clock without touching hold or progress, and leaves an idle gate alone |
| ParentalGate.DashOffset | src/components/ParentalGate.tsx:99-100 | the ring offset lies in [0, 276] for progress in [0, 100]: 276 at 0 and 0 at 100 |
| ParentalGate.DashOffsetDecreasing | src/components/ParentalGate.tsx:100 | more progress never gives a larger offset |
| ParentalGate.AtMostOneUnlockPerPress | src/components/ParentalGate.tsx:30-35 | over any input sequence, unlocks plus a still-held press never exceed the presses begun, so each press unlocks at most once |
| ParentalGate.StepKeepsInvariant | src/components/ParentalGate.tsx:20-50 | with a clock that does not run back, every input keeps progress in [0, 100), progress 0 when idle, and a start time no later than now |
| ParentalGate.RunKeepsInvariant | src/components/ParentalGate.tsx:26-50 | over any chronological input sequence, progress stays in [0, 100) and is 0 whenever the button is not held |
| ParentalGate.IdleTicksDoNothing | src/components/ParentalGate.tsx:22-44 | ticks reaching a gate that is not held change nothing and unlock nothing |
| ParentalGate.ShortHoldNeverUnlocks | src/components/ParentalGate.tsx:26-32 | ticks all earlier than 3000 ms into a hold never unlock and keep the press and its start time. Progress below 100 shows the share of 3000 ms that had passed at the latest tick |
| ParentalGate.LongHoldUnlocksOnce | src/components/ParentalGate.tsx:26-36 | if some tick comes 3000 ms or more into a hold, the ticks unlock exactly once and leave the gate released with progress 0 |
| SolarSystem.PlanetX | src/components/SolarSystem.tsx:41-48 | planet i sits i·30 along the reading direction and at the origin exactly when i is 0 |
| SolarSystem.PlacementOrdered | src/components/SolarSystem.tsx:48 | slot order along the reading direction follows index order strictly |
| SolarSystem.SelectedId | src/components/SolarSystem.tsx:96 | `selectedPlanet?.id` is present exactly when a planet is selected, and is that planet's id |
| SolarSystem.HandlePlanetClick | src/components/SolarSystem.tsx:77-88 | a click selects the planet. A locked planet opens the locked overlay, keeps orbit mode and tracks only `planet_clicked`. An unlocked planet enters orbit and tracks `planet_clicked` then `orbit_mode_entered`. The POI and the gate are untouched |
| SolarSystem.HandlePoiClick | src/components/SolarSystem.tsx:90-93 | a marker click selects the point of interest, changes nothing else and tracks it with the selected planet's id |
| SolarSystem.HandleUnlockRequest | src/components/SolarSystem.tsx:95-99 | an unlock request closes the locked overlay and opens the gate, so the two are not both open afterwards, and tracks `unlock_requested` |
| SolarSystem.HandleGateUnlock | src/components/SolarSystem.tsx:101-105 | gate success clears only the gate flag; planet and orbit mode are unchanged and `gate_success` is tracked |
| SolarSystem.HandleBackToSystem | src/components/SolarSystem.tsx:107-111 | back leaves orbit and clears planet and POI, tracks nothing and leaves the overlay flags alone |
| SolarSystem.DismissLockedOverlay | src/components/SolarSystem.tsx:191-192 | "keep playing" clears only the locked-overlay flag, so the planet stays selected |
| SolarSystem.CloseGate | src/components/SolarSystem.tsx:214-216 | the gate's cancel clears only the gate flag |
| SolarSystem.ClosePoiDetail | src/components/SolarSystem.tsx:205-209 | the detail view's back action clears only the point of interest |
| SolarSystem.FindIndex | src/components/SolarSystem.tsx:113-115 | the result is -1 exactly when no planet has the id; otherwise it is the first index whose planet has it |
| SolarSystem.SelectedPlanetIndex | src/components/SolarSystem.tsx:113-115 | the index is absent exactly when no planet is selected. For a selected planet from the list it is the first index with its id |
| SolarSystem.RigPropsOf | src/components/SolarSystem.tsx:152-158 | the rig gets the planet count, spacing 30, the selected index, orbit mode as its zoom flag and the line-up view. It is right-to-left exactly for the `he` and `ar` locales |
| SolarSystem.Commit | src/components/ParentalGate.tsx:22-44 | committing a handler appends its events to the trace and installs its selection. A changed selection restarts a held press's clock at now, because the gate's effect re-runs for the new `onUnlock`. An unchanged selection leaves the gate exactly as given. Hold and progress are never touched |
| SolarSystem.Step | src/components/ParentalGate.tsx:30-36 | every input keeps the planet list and only extends the analytics trace at its end. A controller input installs its handler's selection and events. Pressing and releasing leave selection and trace alone. A tick 3000 ms or more into a hold runs the gate-success handler: the gate closes, the hold ends with progress 0 and `gate_success` is tracked for the selected id. Any other tick changes neither selection nor trace. The gate follows `Press` on a press, `Release` on a release and `Tick` on a tick. A controller input leaves it alone unless the selection changes, which restarts a held press's clock |
| SolarSystem.GateVisibilityLeavesHoldAlone | src/components/ParentalGate.tsx:44-52 | opening or closing the gate sets the gate flag and changes neither the hold nor its progress |
| SolarSystemRuns.AppendKeepsWellFormed | src/components/SolarSystem.tsx:78-86 | appending a handler's events keeps every `orbit_mode_entered` right after an unlocked `planet_clicked` for the same planet |
| SolarSystemRuns.HandlersEmitAppendable | src/components/SolarSystem.tsx:77-111 | every input emits events that can follow any well-formed trace |
| SolarSystemRuns.MountInvariant | src/components/SolarSystem.tsx:69-74 | the mounted state satisfies every invariant below |
| SolarSystemRuns.StepKeepsCore | src/components/SolarSystem.tsx:77-111 | every on-screen input keeps the invariants. A POI implies orbit, orbit implies a selected planet, and the selected planet is from the list. The gate's progress bounds hold and the trace stays well formed |
| SolarSystemRuns.StepKeepsScreen | src/components/SolarSystem.tsx:172-216 | an uncovered input keeps the overlays exclusive and keeps the selected POI on the selected planet |
| SolarSystemRuns.RenderedRunKeepsCore | src/components/SolarSystem.tsx:77-111 | the step invariants hold over any chronological run of on-screen inputs |
| SolarSystemRuns.EnabledRunKeepsScreen | src/components/SolarSystem.tsx:172-216 | the overlay and POI invariants hold over any chronological run of uncovered inputs |
| SolarSystemRuns.RenderedRunsFromMount | src/components/SolarSystem.tsx:69-111 | from mount, a selected POI implies orbit mode and a selected planet from the list. Gate progress stays in [0, 100) and is 0 when idle, and the trace is well formed |
| SolarSystemRuns.EnabledRunsFromMount | src/components/SolarSystem.tsx:95-99 | from mount, with covering overlays, the locked overlay and the gate are never both open and the POI belongs to the selected planet. Every rendered-run invariant holds too, since an uncovered input is a rendered one |
| SolarSystemRuns.TraceAppendOnly | src/components/SolarSystem.tsx:77-105 | over any run the analytics trace only grows at its end |
| SolarSystemRuns.OrbitCameraFramesSelectedPlanet | src/components/SolarSystem.tsx:113-158 | in orbit the rig aims at the slot of the first planet with the selected id, laid out in the locale's direction, at depth 6 |
| SolarSystemRuns.OverviewCameraSpansPlanets | src/components/SolarSystem.tsx:145-158 | outside orbit, scroll offset 0 aims at the first planet's slot and offset 1 at the last one's, at depth 20. With two or more planets the far end is left of the origin exactly for the `he` and `ar` locales |
| SolarSystemRuns.OrbitOnLockedPlanetIsReachable | src/components/SolarSystem.tsx:77-88 | a reachable uncovered screen is in orbit on a locked planet, with its markers shown |
| SolarSystemRuns.ClosedGateStillUnlocks | src/components/ParentalGate.tsx:41-52 | a reachable screen has the gate hidden with a press still held, and a later tick there tracks `gate_success` |
| SolarSystemRuns.OverlaysClashWithoutModalCover | src/components/SolarSystem.tsx:174-177 | a planet click that got past the gate's cover would leave the locked overlay and the gate open together |

## Left out

- Rendering is not modelled: JSX markup, framer-motion animations, materials, the shaders in `SunVisuals.tsx` and `Atmosphere.tsx`, ring and atmosphere colours, scale-on-select and cursor styling. They are presentational.
- `SpaceDust.tsx`, the point-of-interest marker placement and its pulse are not modelled. They rely on randomness and floating-point vector maths.
- `alert`, `useSound` and the console logging inside `useAnalytics` are left out. They are side effects; `track` is modelled as appending to a list.
- The Rocket Lab screen, its `showRocketLab` flag and the "Build Ship" button are not modelled. Opening Rocket Lab unmounts the gate, which clears a held press's interval, and the whole scene, which resets drag state, camera and scroll. The model has no input for it, so its claims about held presses and the scene hold only while Rocket Lab stays closed.
- `setInterval`'s 50 ms period, `Date.now` and the render loop are left out. They become explicit inputs carrying a time or a frame delta.
- React effect timing is not modelled. A state change and the effect cleanup and setup it triggers happen in one step, so a tick landing between a release and the cleanup is not covered.
- Parent re-renders with no selection change, such as a locale change, are not inputs. Only selection changes restart a held press.
- Floating-point rounding is not modelled: JavaScript numbers are reals.
- `toLowerCase` is modelled for ASCII letters only.
- Keys inherited from `Object.prototype` in the texture lookup are not modelled.
- An absent `isLocked` is modelled as `false`, so the `locked: undefined` payload reads as `false`.
- The scroll offset is an input. The damping of the scroll control belongs to the scroll library.
- `meshRef.current` is assumed set, that is, the mesh is mounted.
- `RocketLab.tsx`, `PlanetCard.tsx`, `PlanetDetail.tsx` contents, `Scene.tsx`, `Button.tsx`, `features.ts`, the layouts and `next.config.ts` are framework glue or presentational.
- The field named `map` in the texture table is called `colorMap`, and the point-of-interest `label` is called `labelText`, because both names are reserved in Dafny.
- CameraRig.CameraSettles: proved only for frames with 4δ ≤ 1 (δ ≤ 250 ms). Longer frames make the lerp overshoot, and the rig promises no settling for them.
- ParentalGate.RunKeepsInvariant: the lower bound on progress is proved for a clock that never runs backwards. `Date.now` gives no such guarantee.

=== FILE: assets.dfy ===
/** The texture table of the planets and the lookup that falls back to the
    Mars textures for an unknown key. */
module Assets {
  import opened Prelude

  /** One planet's texture paths. `colorMap` stands for the source's `map`
      key (a reserved word here); the other keys are optional. */
  datatype AssetSet = AssetSet(
    colorMap: string,
    normalMap: Option<string>,
    specularMap: Option<string>,
    cloudsMap: Option<string>,
    ringMap: Option<string>,
    atmosphere: Option<string>)

  function Surface(colorMap: string): AssetSet
  {
    AssetSet(colorMap, None, None, None, None, None)
  }

  /** The static table, keyed by lower-case planet id. */
  const PlanetAssets: map<string, AssetSet> := map[
    "sun" := Surface("/textures/2k_sun.jpg"),
    "mercury" := Surface("/textures/2k_mercury.jpg"),
    "venus" := Surface("/textures/2k_venus_surface.jpg").(atmosphere := Some("/textures/2k_venus_atmosphere.jpg")),
    "earth" := AssetSet("/textures/2k_earth_daymap.jpg",
                        Some("/textures/2k_earth_normal_map.jpg"),
                        Some("/textures/2k_earth_specular_map.jpg"),
                        Some("/textures/2k_earth_clouds.jpg"),
                        None, None),
    "moon" := Surface("/textures/2k_moon.jpg"),
    "mars" := Surface("/textures/2k_mars.jpg").(normalMap := Some("/textures/2k_mars_normal_map.png")),
    "jupiter" := Surface("/textures/2k_jupiter.jpg"),
    "saturn" := Surface("/textures/2k_saturn.jpg").(ringMap := Some("/textures/2k_saturn_ring_alpha.png")),
    "uranus" := Surface("/textures/2k_uranus.jpg").(ringMap := Some("/textures/2k_uranus_ring_alpha.png")),
    "neptune" := Surface("/textures/2k_neptune.jpg")
  ]

  /** The key the fallback lands on. */
  const FallbackKey: string := "mars"

  /** ASCII lower-casing of one character. */
  function LowerChar(c: char): (r: char)
    ensures !('A' <= r <= 'Z')
    ensures 'a' <= r <= 'z' <==> ('a' <= c <= 'z' || 'A' <= c <= 'Z')
    ensures 'A' <= c <= 'Z' ==> r as int - 'a' as int == c as int - 'A' as int
    ensures !('A' <= c <= 'Z') ==> r == c
  {
    if 'A' <= c <= 'Z' then (c as int + 32) as char else c
  }

  /** `String.prototype.toLowerCase`, restricted to ASCII letters. */
  function ToLower(s: string): (r: string)
    ensures |r| == |s|
    ensures forall i :: 0 <= i < |r| ==> !('A' <= r[i] <= 'Z')
    ensures forall i :: 0 <= i < |s| && !('A' <= s[i] <= 'Z') ==> r[i] == s[i]
    ensures forall i :: 0 <= i < |s| && 'A' <= s[i] <= 'Z' ==> r[i] as int - 'a' as int == s[i] as int - 'A' as int
  {
    seq(|s|, i requires 0 <= i < |s| => LowerChar(s[i]))
  }

  /** Lower-casing twice is lower-casing once. */
  lemma ToLowerIdempotent(s: string)
    ensures ToLower(ToLower(s)) == ToLower(s)
  {
  }

  /** `PLANET_ASSETS[key] || PLANET_ASSETS['mars']`. */
  function AssetsFor(key: string): (a: AssetSet)
    ensures a in PlanetAssets.Values
    ensures a.colorMap != ""
    ensures key in PlanetAssets ==> a == PlanetAssets[key]
    ensures key !in PlanetAssets ==> a == PlanetAssets[FallbackKey]
  {
    if key in PlanetAssets then PlanetAssets[key] else PlanetAssets[FallbackKey]
  }

  /** Only the Earth entry carries a cloud layer, and an unknown key (which
      lands on Mars) never does. */
  lemma CloudsOnlyOnEarth(key: string)
    ensures AssetsFor(key).cloudsMap.Some? <==> key == "earth"
  {
  }

  /** The ring textures belong exactly to Saturn and Uranus. */
  lemma RingTexturesOnlyOnRingedPlanets(key: string)
    ensures AssetsFor(key).ringMap.Some? <==> (key == "saturn" || key == "uranus")
  {
  }
}

=== FILE: camerarig.dfy ===
/** The per-frame camera rig: pick a desired camera position from the rig's
    inputs, then ease the camera's x and z toward it by linear interpolation
    scaled by the frame time. The frame loop itself is outside the model; each
    call of `FrameStep` is one frame with its elapsed time `delta` in seconds. */
module CameraRig {
  import opened Prelude

  datatype ViewMode = Orrery | LineUp

  /** The rig's props. `targetPlanetIndex` covers both `null` and `undefined`. */
  datatype RigProps = RigProps(
    planetCount: int,
    planetSpacing: real,
    isRtl: bool,
    targetPlanetIndex: Option<int>,
    isZoomed: bool,
    viewMode: ViewMode)

  datatype Vec3 = Vec3(x: real, y: real, z: real)

  /** The desired camera position on the two axes the rig drives. */
  datatype Target = Target(x: real, z: real)

  /** Camera distance in orbit (close-up) and in the system overview. */
  const OrbitZ: real := 6.0
  const SystemZ: real := 20.0

  /** Easing rates per second on each axis. */
  const XRate: real := 4.0
  const ZRate: real := 3.0

  /** Whether the rig locks onto a planet rather than following the scroll. */
  predicate TargetsPlanet(props: RigProps)
  {
    props.isZoomed && props.targetPlanetIndex.Some?
  }

  /** Distance from the first to the last planet along the line-up. */
  function TotalDistance(props: RigProps): real
  {
    (props.planetCount - 1) as real * props.planetSpacing
  }

  /** The desired camera position for scroll offset `offset`. */
  function DesiredTarget(props: RigProps, offset: real): (t: Target)
    ensures TargetsPlanet(props) ==> t.z == OrbitZ
    ensures !TargetsPlanet(props) ==> t.z == SystemZ
  {
    var direction := Direction(props.isRtl);
    if TargetsPlanet(props) then
      Target(props.targetPlanetIndex.value as real * props.planetSpacing * direction, OrbitZ)
    else
      Target(offset * TotalDistance(props) * direction, SystemZ)
  }

  /** Locked on a planet, the target is that planet's slot and the scroll
      offset is ignored: background scrolling does not move the camera. */
  lemma OrbitTargetIgnoresScroll(props: RigProps, offset1: real, offset2: real)
    requires TargetsPlanet(props)
    ensures DesiredTarget(props, offset1) == DesiredTarget(props, offset2)
    ensures DesiredTarget(props, offset1).x
         == props.targetPlanetIndex.value as real * props.planetSpacing * Direction(props.isRtl)
  {
  }

  /** Zoomed without a target index behaves exactly like the overview. */
  lemma ZoomWithoutTargetFollowsScroll(props: RigProps, offset: real)
    requires props.isZoomed && props.targetPlanetIndex.None?
    ensures DesiredTarget(props, offset) == DesiredTarget(props.(isZoomed := false), offset)
    ensures DesiredTarget(props, offset).x == offset * TotalDistance(props) * Direction(props.isRtl)
  {
  }

  /** In the overview a scroll offset in [0, 1] targets a point between the
      first planet (offset 0) and the last one (offset 1), on the side the
      layout direction chooses. */
  lemma ScrollTargetBetweenEnds(props: RigProps, offset: real)
    requires !TargetsPlanet(props)
    requires props.planetCount >= 1 && props.planetSpacing >= 0.0
    requires 0.0 <= offset <= 1.0
    ensures 0.0 <= Direction(props.isRtl) * DesiredTarget(props, offset).x <= TotalDistance(props)
    ensures offset == 0.0 ==> DesiredTarget(props, offset).x == 0.0
    ensures offset == 1.0 ==> DesiredTarget(props, offset).x == TotalDistance(props) * Direction(props.isRtl)
  {
    var total := TotalDistance(props);
    var d := Direction(props.isRtl);
    assert total >= 0.0 by {
      assert (props.planetCount - 1) as real >= 0.0;
    }
    assert d * d == 1.0;
    assert d * DesiredTarget(props, offset).x == offset * total * (d * d);
    assert offset * total <= total by {
      assert (1.0 - offset) * total >= 0.0;
    }
  }

  /** Scrolling further never moves the overview target backwards. */
  lemma ScrollTargetMonotone(props: RigProps, offset1: real, offset2: real)
    requires !TargetsPlanet(props)
    requires props.planetCount >= 1 && props.planetSpacing >= 0.0
    requires offset1 <= offset2
    ensures Direction(props.isRtl) * DesiredTarget(props, offset1).x
         <= Direction(props.isRtl) * DesiredTarget(props, offset2).x
  {
    var total := TotalDistance(props);
    var d := Direction(props.isRtl);
    assert total >= 0.0 by {
      assert (props.planetCount - 1) as real >= 0.0;
    }
    assert d * d == 1.0;
    assert d * DesiredTarget(props, offset1).x == offset1 * total * (d * d);
    assert d * DesiredTarget(props, offset2).x == offset2 * total * (d * d);
    assert (offset2 - offset1) * total >= 0.0;
  }

  /** Linear interpolation in the `(1 - t) * a + t * b` form. */
  function Lerp(a: real, b: real, t: real): real
  {
    (1.0 - t) * a + t * b
  }

  /** `a` lies between the two bounds, in either order. */
  predicate Between(lo: real, a: real, hi: real)
  {
    (lo <= a <= hi) || (hi <= a <= lo)
  }

  lemma MulNonNegative(x: real, y: real)
    requires x >= 0.0 && y >= 0.0
    ensures x * y >= 0.0
  {
  }

  lemma MulMonotone(p: real, x: real, y: real)
    requires p >= 0.0 && x <= y
    ensures p * x <= p * y
  {
    MulNonNegative(p, y - x);
  }

  /** One step of the gap recurrence: a gap `q * g'` with `g' = f * g` is
      `(f * q) * g`. */
  lemma ChainGap(gap: real, q: real, g': real, g: real, f: real, p: real)
    requires gap == q * g' && g' == f * g && p == f * q
    ensures gap == p * g
  {
  }

  /** For a factor in [0, 1] the eased value never overshoots, and the gap
      shrinks by exactly the factor `1 - t`. */
  lemma LerpContracts(a: real, b: real, t: real)
    requires 0.0 <= t <= 1.0
    ensures Between(a, Lerp(a, b, t), b)
    ensures Abs(b - Lerp(a, b, t)) == (1.0 - t) * Abs(b - a)
  {
    var r := Lerp(a, b, t);
    assert b - r == (1.0 - t) * (b - a);
    if b >= a {
      MulNonNegative(1.0 - t, b - a);
      MulNonNegative(t, b - a);
    } else {
      MulNonNegative(1.0 - t, a - b);
      MulNonNegative(t, a - b);
      assert Abs(b - r) == (1.0 - t) * (a - b);
    }
  }

  /** One frame. Only x and z are written; the orrery view leaves the camera
      alone. */
  function FrameStep(camera: Vec3, props: RigProps, offset: real, delta: real): (r: Vec3)
    ensures r.y == camera.y
    ensures props.viewMode == Orrery ==> r == camera
    ensures props.viewMode == LineUp ==>
      var t := DesiredTarget(props, offset);
      && r.x - camera.x == delta * XRate * (t.x - camera.x)
      && r.z - camera.z == delta * ZRate * (t.z - camera.z)
  {
    if props.viewMode == Orrery then camera
    else
      var t := DesiredTarget(props, offset);
      camera.(x := Lerp(camera.x, t.x, delta * XRate), z := Lerp(camera.z, t.z, delta * ZRate))
  }

  /** A camera already at the desired position stays there. */
  lemma FrameStepFixedPoint(camera: Vec3, props: RigProps, offset: real, delta: real)
    requires camera.x == DesiredTarget(props, offset).x && camera.z == DesiredTarget(props, offset).z
    ensures FrameStep(camera, props, offset, delta) == camera
  {
  }

  /** With a frame short enough that both easing factors lie in [0, 1], each
      axis moves toward its target without overshooting and its gap shrinks by
      the factor `1 - rate * delta`. */
  lemma FrameStepContracts(camera: Vec3, props: RigProps, offset: real, delta: real)
    requires props.viewMode == LineUp
    requires 0.0 <= delta * XRate <= 1.0 && 0.0 <= delta * ZRate <= 1.0
    ensures var t := DesiredTarget(props, offset);
            var r := FrameStep(camera, props, offset, delta);
            && Between(camera.x, r.x, t.x)
            && Between(camera.z, r.z, t.z)
            && Abs(t.x - r.x) == (1.0 - delta * XRate) * Abs(t.x - camera.x)
            && Abs(t.z - r.z) == (1.0 - delta * ZRate) * Abs(t.z - camera.z)
  {
    var t := DesiredTarget(props, offset);
    LerpContracts(camera.x, t.x, delta * XRate);
    LerpContracts(camera.z, t.z, delta * ZRate);
  }

  // ---------------------------------------------------------------------
  // Convergence under repeated frames with unchanged inputs
  // ---------------------------------------------------------------------

  function Pow(b: real, n: nat): real
  {
    if n == 0 then 1.0 else b * Pow(b, n - 1)
  }

  /** `n` easing steps of one scalar toward a fixed target. */
  function Glide(a: real, b: real, t: real, n: nat): real
    decreases n
  {
    if n == 0 then a else Glide(Lerp(a, b, t), b, t, n - 1)
  }

  lemma {:induction false} PowNonNegative(b: real, n: nat)
    requires b >= 0.0
    ensures Pow(b, n) >= 0.0
  {
    if n > 0 {
      PowNonNegative(b, n - 1);
      assert b * Pow(b, n - 1) >= 0.0;
    }
  }

  /** One easing step leaves the fraction `1 - t` of the signed gap. */
  lemma LerpGap(a: real, b: real, t: real)
    ensures b - Lerp(a, b, t) == (1.0 - t) * (b - a)
  {
  }

  /** After `n` steps the signed gap is the `n`-th power of `1 - t` times the
      initial gap. */
  lemma {:induction false} GlideSignedGap(a: real, b: real, t: real, n: nat)
    ensures b - Glide(a, b, t, n) == Pow(1.0 - t, n) * (b - a)
    decreases n
  {
    if n > 0 {
      var a' := Lerp(a, b, t);
      var q := Pow(1.0 - t, n - 1);
      assert b - Glide(a, b, t, n) == q * (b - a') by {
        GlideSignedGap(a', b, t, n - 1);
      }
      assert b - a' == (1.0 - t) * (b - a) by {
        LerpGap(a, b, t);
      }
      ChainGap(b - Glide(a, b, t, n), q, b - a', b - a, 1.0 - t, Pow(1.0 - t, n));
    }
  }

  /** For a factor in [0, 1] the distance to the target after `n` steps is the
      `n`-th power of `1 - t` times the initial distance. */
  lemma GlideGap(a: real, b: real, t: real, n: nat)
    requires 0.0 <= t <= 1.0
    ensures Abs(b - Glide(a, b, t, n)) == Pow(1.0 - t, n) * Abs(b - a)
  {
    GlideSignedGap(a, b, t, n);
    PowNonNegative(1.0 - t, n);
    AbsScale(Pow(1.0 - t, n), b - a);
  }

  lemma AbsScale(p: real, x: real)
    requires p >= 0.0
    ensures Abs(p * x) == p * Abs(x)
  {
    if x >= 0.0 {
      MulNonNegative(p, x);
    } else {
      MulNonNegative(p, -x);
    }
  }

  /** The inductive step of Bernoulli's bound, on plain numbers. */
  lemma BernoulliStep(p: real, k: real, m: real)
    requires p >= 0.0 && 0.0 <= k <= 1.0 && m >= 0.0
    requires p * (1.0 + m) <= 1.0
    ensures ((1.0 - k) * p) * (1.0 + m + k) <= 1.0
  {
    assert (1.0 - k) * (1.0 + m + k) == 1.0 + m - k * m - k * k;
    MulNonNegative(k, m);
    MulNonNegative(k, k);
    MulMonotone(p, (1.0 - k) * (1.0 + m + k), 1.0 + m);
    assert ((1.0 - k) * p) * (1.0 + m + k) == p * ((1.0 - k) * (1.0 + m + k));
  }

  /** Bernoulli's bound in product form: `(1 - k)^n * (1 + n k) <= 1`. */
  lemma {:induction false} PowBernoulli(k: real, n: nat)
    requires 0.0 <= k <= 1.0
    ensures Pow(1.0 - k, n) * (1.0 + n as real * k) <= 1.0
    decreases n
  {
    if n > 0 {
      var p := Pow(1.0 - k, n - 1);
      var m := (n - 1) as real * k;
      assert p * (1.0 + m) <= 1.0 by {
        PowBernoulli(k, n - 1);
      }
      assert p >= 0.0 by {
        PowNonNegative(1.0 - k, n - 1);
      }
      assert m >= 0.0 by {
        MulNonNegative((n - 1) as real, k);
      }
      BernoulliStep(p, k, m);
      assert Pow(1.0 - k, n) == (1.0 - k) * p;
      assert n as real * k == m + k;
    }
  }

  /** The arithmetic core of convergence: a factor `p` with `p * (1 + nt) <= 1`
      scales any gap covered by `nt * eps` to at most `eps`. */
  lemma GapBound(p: real, nt: real, g: real, eps: real)
    requires p >= 0.0 && nt >= 0.0 && eps > 0.0
    requires p * (1.0 + nt) <= 1.0
    requires g <= nt * eps
    ensures p * g <= eps
  {
    MulMonotone(p, g, nt * eps);
    assert p * nt <= 1.0;
    MulMonotone(eps, p * nt, 1.0);
    assert p * (nt * eps) == eps * (p * nt);
  }

  /** The factor after `n` steps scales any gap that `n * t * eps` covers
      down to at most `eps`. */
  lemma PowScalesGapBelow(t: real, n: nat, g: real, eps: real)
    requires 0.0 < t <= 1.0 && eps > 0.0
    requires n as real * t * eps >= g
    ensures Pow(1.0 - t, n) * g <= eps
  {
    var p := Pow(1.0 - t, n);
    var nt := n as real * t;
    PowNonNegative(1.0 - t, n);
    PowBernoulli(t, n);
    MulNonNegative(n as real, t);
    GapBound(p, nt, g, eps);
  }

  /** A bounded number of steps suffices: once `n * t * eps` covers the
      initial gap, the value is within `eps` of its target. */
  lemma GlideConverges(a: real, b: real, t: real, n: nat, eps: real)
    requires 0.0 < t <= 1.0 && eps > 0.0
    requires n as real * t * eps >= Abs(b - a)
    ensures Abs(b - Glide(a, b, t, n)) <= eps
  {
    GlideGap(a, b, t, n);
    PowScalesGapBelow(t, n, Abs(b - a), eps);
  }

  /** `n` frames with unchanged inputs. */
  function Frames(camera: Vec3, props: RigProps, offset: real, delta: real, n: nat): Vec3
    decreases n
  {
    if n == 0 then camera else Frames(FrameStep(camera, props, offset, delta), props, offset, delta, n - 1)
  }

  /** Repeated frames ease each axis independently toward the fixed target. */
  lemma {:induction false} FramesAreGlides(camera: Vec3, props: RigProps, offset: real, delta: real, n: nat)
    requires props.viewMode == LineUp
    ensures var t := DesiredTarget(props, offset);
            var r := Frames(camera, props, offset, delta, n);
            && r.x == Glide(camera.x, t.x, delta * XRate, n)
            && r.z == Glide(camera.z, t.z, delta * ZRate, n)
            && r.y == camera.y
    decreases n
  {
    if n > 0 {
      FramesAreGlides(FrameStep(camera, props, offset, delta), props, offset, delta, n - 1);
    }
  }

  /** Both axes of a glide settle within `eps` once the frame count covers
      each axis's gap at that axis's rate. */
  lemma AxesSettle(cx: real, cz: real, tx: real, tz: real, delta: real, n: nat, eps: real)
    requires 0.0 < delta && delta * XRate <= 1.0 && eps > 0.0
    requires n as real * (delta * XRate) * eps >= Abs(tx - cx)
    requires n as real * (delta * ZRate) * eps >= Abs(tz - cz)
    ensures Abs(tx - Glide(cx, tx, delta * XRate, n)) <= eps
    ensures Abs(tz - Glide(cz, tz, delta * ZRate, n)) <= eps
  {
    var kx := delta * XRate;
    var kz := delta * ZRate;
    assert 0.0 < kz <= 1.0;
    GlideConverges(cx, tx, kx, n, eps);
    GlideConverges(cz, tz, kz, n, eps);
  }

  /** After a jump of the target (entering or leaving orbit) the camera comes
      within `eps` of the new target on both axes in a number of frames that
      depends only on the size of the jump, the frame time and `eps`. */
  lemma CameraSettles(camera: Vec3, props: RigProps, offset: real, delta: real, n: nat, eps: real)
    requires props.viewMode == LineUp
    requires 0.0 < delta && delta * XRate <= 1.0 && eps > 0.0
    requires n as real * (delta * XRate) * eps >= Abs(DesiredTarget(props, offset).x - camera.x)
    requires n as real * (delta * ZRate) * eps >= Abs(DesiredTarget(props, offset).z - camera.z)
    ensures Abs(DesiredTarget(props, offset).x - Frames(camera, props, offset, delta, n).x) <= eps
    ensures Abs(DesiredTarget(props, offset).z - Frames(camera, props, offset, delta, n).z) <= eps
  {
    var t := DesiredTarget(props, offset);
    FramesAreGlides(camera, props, offset, delta, n);
    AxesSettle(camera.x, camera.z, t.x, t.z, delta, n, eps);
  }
}

=== FILE: content.dfy ===
/** The static content records a planet is made of, and the locale rule for
    right-to-left layout. */
module Content {
  import opened Prelude

  /** A clickable hotspot on a planet's surface. `labelText` is the source's
      `label` (a reserved word here). */
  datatype PointOfInterest = PointOfInterest(
    id: string,
    labelText: string,
    position: (real, real, real),
    fact: string)

  /** A planet record. An absent `isLocked` is falsy in the source and is
      modelled as `false`. */
  datatype Planet = Planet(
    id: string,
    icon: string,
    color: string,
    translationKey: string,
    isLocked: bool,
    facts: seq<string>,
    pointsOfInterest: Option<seq<PointOfInterest>>)

  /** The locales that are laid out right to left. */
  predicate IsRtlLocale(locale: string)
  {
    locale == "he" || locale == "ar"
  }
}

=== FILE: parentalgate.dfy ===
/** The press-and-hold parental gate. The interval timer is abstracted to
    explicit `TickAt(now)` inputs carrying the clock reading in milliseconds;
    a tick is delivered only while an interval exists, which is exactly while
    the button is held. The gate's `isOpen` prop belongs to its parent and is
    not part of this state: hiding the gate leaves this state untouched. */
module ParentalGate {
  import opened Prelude

  /** Hold time needed to unlock, in milliseconds. */
  const RequiredTime: real := 3000.0

  /** Circumference of the progress ring, used as its dash length. */
  const RingLength: real := 276.0

  /** The component's state and the press start time held in a ref. */
  datatype Gate = Gate(isPressing: bool, progress: real, startTime: real)

  const InitialGate: Gate := Gate(false, 0.0, 0.0)

  /** Percentage shown for `elapsed` milliseconds of holding, clamped at 100. */
  function ProgressAt(elapsed: real): (p: real)
    ensures p <= 100.0
    ensures elapsed >= 0.0 ==> p >= 0.0
    ensures p >= 100.0 <==> elapsed >= RequiredTime
    ensures p < 100.0 ==> p * RequiredTime == elapsed * 100.0
  {
    Min((elapsed / RequiredTime) * 100.0, 100.0)
  }

  /** The gate after a tick, and whether the tick invoked `onUnlock`. */
  datatype TickResult = TickResult(gate: Gate, unlocked: bool)

  /** One interval tick at clock reading `now`. It unlocks exactly when the
      hold has lasted the required time, and unlocking ends the press and
      clears the progress; otherwise progress tracks the elapsed time. */
  function Tick(g: Gate, now: real): (r: TickResult)
    ensures !g.isPressing ==> r == TickResult(g, false)
    ensures g.isPressing ==> (r.unlocked <==> now - g.startTime >= RequiredTime)
    ensures r.unlocked ==> !r.gate.isPressing && r.gate.progress == 0.0
    ensures g.isPressing && !r.unlocked ==>
      && r.gate.isPressing
      && r.gate.startTime == g.startTime
      && r.gate.progress == ProgressAt(now - g.startTime)
      && r.gate.progress < 100.0
  {
    if !g.isPressing then TickResult(g, false)
    else
      var p := ProgressAt(now - g.startTime);
      if p >= 100.0 then TickResult(g.(isPressing := false, progress := 0.0), true)
      else TickResult(g.(progress := p), false)
  }

  /** Mouse down or touch start at `now`. A press that is already held is not
      restarted, since setting the same state does not re-run the effect. */
  function Press(g: Gate, now: real): (r: Gate)
    ensures r.isPressing && r.progress == g.progress
    ensures !g.isPressing ==> r.startTime == now
    ensures g.isPressing ==> r == g
  {
    if g.isPressing then g else g.(isPressing := true, startTime := now)
  }

  /** Mouse up, mouse leave or touch end: no partial credit survives. */
  function Release(g: Gate): (r: Gate)
    ensures !r.isPressing && r.progress == 0.0
    ensures r.startTime == g.startTime
  {
    g.(isPressing := false, progress := 0.0)
  }

  /** The `onUnlock` prop changed identity (the parent re-rendered). The
      effect re-runs: a held press restarts its clock at `now`, keeping the
      progress shown so far; an idle gate is unaffected. */
  function CallbackChanged(g: Gate, now: real): (r: Gate)
    ensures r.isPressing == g.isPressing && r.progress == g.progress
    ensures g.isPressing ==> r.startTime == now
    ensures !g.isPressing ==> r == g
  {
    if g.isPressing then g.(startTime := now) else g
  }

  /** Dash offset of the progress ring. */
  function DashOffset(progress: real): (r: real)
    ensures 0.0 <= progress <= 100.0 ==> 0.0 <= r <= RingLength
    ensures progress == 0.0 ==> r == RingLength
    ensures progress == 100.0 ==> r == 0.0
  {
    RingLength - (RingLength * progress) / 100.0
  }

  /** The ring fills as progress grows. */
  lemma DashOffsetDecreasing(p1: real, p2: real)
    requires p1 <= p2
    ensures DashOffset(p2) <= DashOffset(p1)
  {
  }

  // ---------------------------------------------------------------------
  // Runs of gate inputs
  // ---------------------------------------------------------------------

  datatype GateEvent =
    | PressAt(now: real)
    | ReleaseEvent
    | TickAt(now: real)
    | CallbackChangedAt(now: real)

  function Step(g: Gate, e: GateEvent): TickResult
  {
    match e
    case PressAt(now) => TickResult(Press(g, now), false)
    case ReleaseEvent => TickResult(Release(g), false)
    case TickAt(now) => Tick(g, now)
    case CallbackChangedAt(now) => TickResult(CallbackChanged(g, now), false)
  }

  /** Whether an input begins a new press. */
  predicate StartsPress(g: Gate, e: GateEvent)
  {
    e.PressAt? && !g.isPressing
  }

  /** The outcome of a run: the final gate, how many times `onUnlock` ran,
      and how many presses began. */
  datatype RunResult = RunResult(gate: Gate, unlocks: nat, pressStarts: nat)

  function Run(g: Gate, es: seq<GateEvent>): RunResult
    decreases |es|
  {
    if |es| == 0 then RunResult(g, 0, 0)
    else
      var s := Step(g, es[0]);
      var rest := Run(s.gate, es[1..]);
      RunResult(rest.gate,
                rest.unlocks + (if s.unlocked then 1 else 0),
                rest.pressStarts + (if StartsPress(g, es[0]) then 1 else 0))
  }

  function B2N(b: bool): nat
  {
    if b then 1 else 0
  }

  /** `onUnlock` runs at most once per press: every unlock consumes the press
      that produced it, and a press still held at the end has not unlocked. */
  lemma {:induction false} AtMostOneUnlockPerPress(g: Gate, es: seq<GateEvent>)
    ensures Run(g, es).unlocks + B2N(Run(g, es).gate.isPressing)
         <= Run(g, es).pressStarts + B2N(g.isPressing)
    decreases |es|
  {
    if |es| > 0 {
      var s := Step(g, es[0]);
      AtMostOneUnlockPerPress(s.gate, es[1..]);
      assert B2N(s.unlocked) + B2N(s.gate.isPressing) <= B2N(StartsPress(g, es[0])) + B2N(g.isPressing);
    }
  }

  /** Clock reading of an input; a release carries none and keeps `clock`. */
  function TimeOf(e: GateEvent, clock: real): real
  {
    if e.ReleaseEvent? then clock else e.now
  }

  /** Inputs arrive with a clock that never runs backwards, starting at `clock`. */
  predicate Chronological(clock: real, es: seq<GateEvent>)
    decreases |es|
  {
    |es| == 0 || (clock <= TimeOf(es[0], clock) && Chronological(TimeOf(es[0], clock), es[1..]))
  }

  /** What holds of the gate at clock reading `clock`: progress lies in
      [0, 100), an idle gate shows no progress, and a held press began no
      later than now. */
  predicate GateInvariant(g: Gate, clock: real)
  {
    && 0.0 <= g.progress < 100.0
    && (!g.isPressing ==> g.progress == 0.0)
    && (g.isPressing ==> g.startTime <= clock)
  }

  lemma StepKeepsInvariant(g: Gate, clock: real, e: GateEvent)
    requires GateInvariant(g, clock)
    requires clock <= TimeOf(e, clock)
    ensures GateInvariant(Step(g, e).gate, TimeOf(e, clock))
  {
  }

  lemma {:induction false} RunKeepsInvariant(g: Gate, clock: real, es: seq<GateEvent>)
    requires GateInvariant(g, clock)
    requires Chronological(clock, es)
    ensures 0.0 <= Run(g, es).gate.progress < 100.0
    ensures !Run(g, es).gate.isPressing ==> Run(g, es).gate.progress == 0.0
    decreases |es|
  {
    if |es| > 0 {
      StepKeepsInvariant(g, clock, es[0]);
      RunKeepsInvariant(Step(g, es[0]).gate, TimeOf(es[0], clock), es[1..]);
    }
  }

  /** A sequence made only of ticks. */
  predicate AllTicks(es: seq<GateEvent>)
  {
    forall i :: 0 <= i < |es| ==> es[i].TickAt?
  }

  /** Ticks do nothing to a gate that is not held. */
  lemma {:induction false} IdleTicksDoNothing(g: Gate, es: seq<GateEvent>)
    requires !g.isPressing && AllTicks(es)
    ensures Run(g, es) == RunResult(g, 0, 0)
    decreases |es|
  {
    if |es| > 0 {
      IdleTicksDoNothing(g, es[1..]);
    }
  }

  /** A hold shorter than the required time never unlocks: every tick before
      the deadline keeps the press going, and the ring shows the share of the
      required time that had passed at the latest tick. */
  lemma {:induction false} ShortHoldNeverUnlocks(g: Gate, es: seq<GateEvent>)
    requires g.isPressing && AllTicks(es)
    requires forall i :: 0 <= i < |es| ==> es[i].now - g.startTime < RequiredTime
    ensures Run(g, es).unlocks == 0
    ensures Run(g, es).gate.isPressing && Run(g, es).gate.startTime == g.startTime
    ensures |es| > 0 ==> Run(g, es).gate.progress == ProgressAt(es[|es| - 1].now - g.startTime)
    ensures |es| > 0 ==> Run(g, es).gate.progress < 100.0
    decreases |es|
  {
    if |es| > 0 {
      var s := Step(g, es[0]);
      assert !s.unlocked && s.gate.isPressing && s.gate.startTime == g.startTime;
      assert s.gate.progress == ProgressAt(es[0].now - g.startTime);
      ShortHoldNeverUnlocks(s.gate, es[1..]);
      if |es| > 1 {
        assert es[1..][|es[1..]| - 1] == es[|es| - 1];
      }
    }
  }

  /** A hold that some tick sees past the required time unlocks exactly once,
      and leaves the gate released. */
  lemma {:induction false} LongHoldUnlocksOnce(g: Gate, es: seq<GateEvent>, k: nat)
    requires g.isPressing && AllTicks(es)
    requires k < |es| && es[k].now - g.startTime >= RequiredTime
    ensures Run(g, es).unlocks == 1
    ensures !Run(g, es).gate.isPressing && Run(g, es).gate.progress == 0.0
    decreases |es|
  {
    var s := Step(g, es[0]);
    if s.unlocked {
      IdleTicksDoNothing(s.gate, es[1..]);
    } else {
      assert k > 0;
      assert es[1..][k - 1] == es[k];
      LongHoldUnlocksOnce(s.gate, es[1..], k - 1);
    }
  }
}

=== FILE: planet3d.dfy ===
/** One rendered planet: its visual category, its texture lookup, and the
    per-planet pointer state that rotates it by dragging and tells a tap from
    a drag. Each planet owns its own `PlanetView`; nothing is shared. */
module Planet3D {
  import opened Prelude
  import opened Content
  import Assets

  // ---------------------------------------------------------------------
  // Category and textures
  // ---------------------------------------------------------------------

  /** The lower-cased id every visual decision is keyed on. */
  function PlanetKey(p: Planet): (key: string)
    ensures |key| == |p.id|
    ensures Assets.ToLower(key) == key
    ensures forall i :: 0 <= i < |p.id| && !('A' <= p.id[i] <= 'Z') ==> key[i] == p.id[i]
    ensures forall i :: 0 <= i < |p.id| && 'A' <= p.id[i] <= 'Z' ==>
      key[i] as int - 'a' as int == p.id[i] as int - 'A' as int
  {
    Assets.ToLowerIdempotent(p.id);
    Assets.ToLower(p.id)
  }

  predicate IsSun(key: string)
  {
    key == "sun"
  }

  predicate IsGasGiant(key: string)
  {
    key in ["jupiter", "saturn", "uranus", "neptune"]
  }

  /** Planets drawn with an atmosphere glow; none of them is a gas giant or the sun. */
  function HasAtmosphere(key: string): (r: bool)
    ensures r ==> !IsGasGiant(key) && !IsSun(key)
  {
    key in ["earth", "venus", "mars"]
  }

  /** Planets drawn with a ring mesh; every one of them is a gas giant. */
  function HasRings(key: string): (r: bool)
    ensures r ==> IsGasGiant(key)
    ensures r ==> !HasAtmosphere(key)
  {
    key == "saturn" || key == "uranus"
  }

  /** One tag per visual composition, assigned once per planet. */
  datatype Category = Star | RingedGasGiant | GasGiant | RockyWithAtmosphere | PlainRocky

  /** The single classification; its contract ties every tag back to the
      id lists the rendering code tests. */
  function Classify(key: string): (c: Category)
    ensures c == Star <==> IsSun(key)
    ensures c == RingedGasGiant <==> HasRings(key)
    ensures (c == GasGiant || c == RingedGasGiant) <==> IsGasGiant(key)
    ensures c == RockyWithAtmosphere <==> HasAtmosphere(key)
  {
    match key
    case "sun" => Star
    case "saturn" => RingedGasGiant
    case "uranus" => RingedGasGiant
    case "jupiter" => GasGiant
    case "neptune" => GasGiant
    case "earth" => RockyWithAtmosphere
    case "venus" => RockyWithAtmosphere
    case "mars" => RockyWithAtmosphere
    case _ => PlainRocky
  }

  /** The planet's textures: its own entry when the lower-cased id is known,
      the Mars entry otherwise. */
  function PlanetTextures(p: Planet): (a: Assets.AssetSet)
    ensures PlanetKey(p) in Assets.PlanetAssets ==> a == Assets.PlanetAssets[PlanetKey(p)]
    ensures PlanetKey(p) !in Assets.PlanetAssets ==> a == Assets.PlanetAssets["mars"]
  {
    Assets.AssetsFor(PlanetKey(p))
  }

  /** Texture choice ignores the case of the id. */
  lemma TexturesIgnoreCase(p: Planet, q: Planet)
    requires Assets.ToLower(p.id) == Assets.ToLower(q.id)
    ensures PlanetTextures(p) == PlanetTextures(q)
  {
  }

  /** The cloud layer is drawn only when the textures carry a clouds map. */
  predicate HasClouds(p: Planet)
  {
    PlanetTextures(p).cloudsMap.Some?
  }

  // ---------------------------------------------------------------------
  // Drag-to-rotate and the tap/drag click gate
  // ---------------------------------------------------------------------

  /** Normalised pointer coordinates. */
  datatype Pointer = Pointer(x: real, y: real)

  /** The refs of one planet plus the mesh rotation they drive:
      pitch `rotX`, yaw `rotY`, and the cloud layer's yaw. */
  datatype PlanetView = PlanetView(
    isDragging: bool,
    dragDistance: real,
    prev: Pointer,
    rotX: real,
    rotY: real,
    cloudsRotY: real)

  /** Refs as first mounted, with the mesh at its default rotation. */
  const InitialView: PlanetView := PlanetView(false, 0.0, Pointer(0.0, 0.0), 0.0, 0.0, 0.0)

  const ClickThreshold: real := 0.05
  const DragGain: real := 2.5
  const PitchLimit: real := 1.0
  const IdleYawRate: real := 0.1
  const CloudsYawRate: real := 0.14

  /** Manhattan distance between two pointer samples. */
  function StepLength(a: Pointer, b: Pointer): (d: real)
    ensures d >= 0.0
    ensures d == 0.0 <==> a == b
  {
    Abs(b.x - a.x) + Abs(b.y - a.y)
  }

  /** `Math.max(-1.0, Math.min(1.0, x))`. */
  function ClampPitch(x: real): (r: real)
    ensures -PitchLimit <= r <= PitchLimit
    ensures -PitchLimit <= x <= PitchLimit ==> r == x
    ensures x > PitchLimit ==> r == PitchLimit
    ensures x < -PitchLimit ==> r == -PitchLimit
  {
    Max(-PitchLimit, Min(PitchLimit, x))
  }

  /** Pointer down starts a fresh drag session at `p`. */
  function PointerDown(v: PlanetView, p: Pointer): (r: PlanetView)
    ensures r.isDragging && r.dragDistance == 0.0 && r.prev == p
    ensures r.rotX == v.rotX && r.rotY == v.rotY && r.cloudsRotY == v.cloudsRotY
  {
    v.(isDragging := true, dragDistance := 0.0, prev := p)
  }

  /** Pointer move: ignored unless dragging; otherwise the step is added to
      the session distance, horizontal motion turns yaw, vertical motion turns
      the clamped pitch, and `p` becomes the previous sample. */
  function PointerMove(v: PlanetView, p: Pointer): (r: PlanetView)
    ensures !v.isDragging ==> r == v
    ensures v.isDragging ==> r.isDragging && r.prev == p
    ensures v.isDragging ==> r.dragDistance == v.dragDistance + StepLength(v.prev, p)
    ensures r.dragDistance >= v.dragDistance
    ensures v.isDragging ==> r.rotY == v.rotY + DragGain * (p.x - v.prev.x)
    ensures v.isDragging ==> -PitchLimit <= r.rotX <= PitchLimit
    ensures v.isDragging ==> r.rotX == ClampPitch(v.rotX + DragGain * (p.y - v.prev.y))
    ensures r.cloudsRotY == v.cloudsRotY
  {
    if !v.isDragging then v
    else
      var dx := p.x - v.prev.x;
      var dy := p.y - v.prev.y;
      v.(dragDistance := v.dragDistance + Abs(dx) + Abs(dy),
         rotY := v.rotY + dx * DragGain,
         rotX := ClampPitch(v.rotX + dy * DragGain),
         prev := p)
  }

  /** Pointer up, pointer leave and pointer out all end the drag; none of them
      resets the session distance, so the next click still sees it. */
  function PointerRelease(v: PlanetView): (r: PlanetView)
    ensures !r.isDragging
    ensures r.dragDistance == v.dragDistance && r.prev == v.prev
    ensures r.rotX == v.rotX && r.rotY == v.rotY && r.cloudsRotY == v.cloudsRotY
  {
    v.(isDragging := false)
  }

  /** A click selects the planet only after a tap, never after a drag. */
  predicate ClickSelects(v: PlanetView)
  {
    v.dragDistance < ClickThreshold
  }

  /** One frame of idle spin: the planet turns only when unlocked, unselected
      and not being dragged; the clouds turn whenever the planet is not
      selected and has a cloud layer. */
  function IdleFrame(v: PlanetView, planet: Planet, isSelected: bool, delta: real): (r: PlanetView)
    ensures r.isDragging == v.isDragging && r.dragDistance == v.dragDistance && r.prev == v.prev
    ensures r.rotX == v.rotX
    ensures r.rotY != v.rotY ==> !planet.isLocked && !isSelected && !v.isDragging
    ensures !planet.isLocked && !isSelected && !v.isDragging ==> r.rotY == v.rotY + IdleYawRate * delta
    ensures r.cloudsRotY != v.cloudsRotY ==> HasClouds(planet) && !isSelected
    ensures HasClouds(planet) && !isSelected ==> r.cloudsRotY == v.cloudsRotY + CloudsYawRate * delta
  {
    var yaw := if !planet.isLocked && !isSelected && !v.isDragging then v.rotY + delta * IdleYawRate else v.rotY;
    var clouds := if HasClouds(planet) && !isSelected then v.cloudsRotY + delta * CloudsYawRate else v.cloudsRotY;
    v.(rotY := yaw, cloudsRotY := clouds)
  }

  /** Every input a planet's view reacts to. */
  datatype ViewEvent =
    | Down(at: Pointer)
    | Move(to: Pointer)
    | Up
    | Leave
    | Out
    | Frame(delta: real, isSelected: bool)

  function Apply(v: PlanetView, planet: Planet, e: ViewEvent): PlanetView
  {
    match e
    case Down(p) => PointerDown(v, p)
    case Move(p) => PointerMove(v, p)
    case Up => PointerRelease(v)
    case Leave => PointerRelease(v)
    case Out => PointerRelease(v)
    case Frame(delta, isSelected) => IdleFrame(v, planet, isSelected, delta)
  }

  function Run(v: PlanetView, planet: Planet, events: seq<ViewEvent>): PlanetView
    decreases |events|
  {
    if |events| == 0 then v else Run(Apply(v, planet, events[0]), planet, events[1..])
  }

  /** The pitch stays within the clamp and the session distance stays
      non-negative, whatever the inputs. */
  predicate ViewInvariant(v: PlanetView)
  {
    -PitchLimit <= v.rotX <= PitchLimit && v.dragDistance >= 0.0
  }

  lemma {:induction false} RunKeepsViewInvariant(v: PlanetView, planet: Planet, events: seq<ViewEvent>)
    requires ViewInvariant(v)
    ensures ViewInvariant(Run(v, planet, events))
    decreases |events|
  {
    if |events| > 0 {
      var w := Apply(v, planet, events[0]);
      assert ViewInvariant(w);
      RunKeepsViewInvariant(w, planet, events[1..]);
    }
  }

  /** From the mounted state the invariant holds after any input sequence. */
  lemma FromMountPitchIsClamped(planet: Planet, events: seq<ViewEvent>)
    ensures -PitchLimit <= Run(InitialView, planet, events).rotX <= PitchLimit
    ensures Run(InitialView, planet, events).dragDistance >= 0.0
  {
    RunKeepsViewInvariant(InitialView, planet, events);
  }

  /** Total Manhattan length of the path `start, ps[0], ps[1], ...`. */
  function PathLength(start: Pointer, ps: seq<Pointer>): (d: real)
    decreases |ps|
  {
    if |ps| == 0 then 0.0 else StepLength(start, ps[0]) + PathLength(ps[0], ps[1..])
  }

  function Last(start: Pointer, ps: seq<Pointer>): Pointer
  {
    if |ps| == 0 then start else ps[|ps| - 1]
  }

  /** A sequence of pointer moves. */
  function Moves(v: PlanetView, ps: seq<Pointer>): PlanetView
    decreases |ps|
  {
    if |ps| == 0 then v else Moves(PointerMove(v, ps[0]), ps[1..])
  }

  /** During a session the distance counter is the path length walked so far,
      and the previous sample is the latest pointer. */
  lemma {:induction false} MovesAccumulatePath(v: PlanetView, ps: seq<Pointer>)
    requires v.isDragging
    ensures Moves(v, ps).isDragging
    ensures Moves(v, ps).dragDistance == v.dragDistance + PathLength(v.prev, ps)
    ensures Moves(v, ps).prev == Last(v.prev, ps)
    decreases |ps|
  {
    if |ps| > 0 {
      var w := PointerMove(v, ps[0]);
      MovesAccumulatePath(w, ps[1..]);
      if |ps| > 1 {
        assert Last(w.prev, ps[1..]) == ps[|ps| - 1];
      }
    }
  }

  /** Path length is never negative, so within a session the counter never
      decreases. */
  lemma {:induction false} PathLengthNonNegative(start: Pointer, ps: seq<Pointer>)
    ensures PathLength(start, ps) >= 0.0
    decreases |ps|
  {
    if |ps| > 0 {
      PathLengthNonNegative(ps[0], ps[1..]);
    }
  }

  /** The tap/drag rule for a whole gesture: press at `p0`, move through `ps`,
      release; the following click selects the planet exactly when the
      gesture's Manhattan path is shorter than the threshold. */
  lemma TapVersusDrag(v: PlanetView, p0: Pointer, ps: seq<Pointer>)
    ensures ClickSelects(PointerRelease(Moves(PointerDown(v, p0), ps))) <==> PathLength(p0, ps) < ClickThreshold
  {
    MovesAccumulatePath(PointerDown(v, p0), ps);
  }
}

=== FILE: prelude.dfy ===
/** Small value types and real-number helpers shared by every component.
    JavaScript numbers are modelled as mathematical reals throughout. */
module Prelude {

  /** A value that may be absent: stands for `T | null` and `T | undefined`. */
  datatype Option<+T> = None | Some(value: T)

  /** `Math.abs`. */
  function Abs(x: real): (r: real)
    ensures r >= 0.0
    ensures r == x || r == -x
  {
    if x < 0.0 then -x else x
  }

  /** `Math.min` of two numbers. */
  function Min(a: real, b: real): (r: real)
    ensures r <= a && r <= b
    ensures r == a || r == b
  {
    if a <= b then a else b
  }

  /** `Math.max` of two numbers. */
  function Max(a: real, b: real): (r: real)
    ensures r >= a && r >= b
    ensures r == a || r == b
  {
    if a >= b then a else b
  }

  /** Horizontal direction multiplier: -1 for a right-to-left layout, 1 otherwise. */
  function Direction(isRtl: bool): (d: real)
    ensures d == 1.0 || d == -1.0
    ensures d < 0.0 <==> isRtl
  {
    if isRtl then -1.0 else 1.0
  }
}

=== FILE: solarsystem.dfy ===
/** The top-level controller: where planets are placed, the selection and
    overlay state with its click and back handlers, the guards that decide
    which controls are on screen, and the composition of that state with the
    parental gate and the analytics event list.

    `track` is modelled as appending to an event list; the "store" alert after
    a successful gate is left out. */
module SolarSystem {
  import opened Prelude
  import opened Content
  import Planet3D
  import CameraRig
  import PG = ParentalGate

  /** Gap between neighbouring planets along the line-up. */
  const PlanetSpacing: real := 30.0

  /** Horizontal position of the planet at `index`: further along the reading
      direction for larger indices, starting at the origin. */
  function PlanetX(index: nat, isRtl: bool): (x: real)
    ensures Direction(isRtl) * x == index as real * PlanetSpacing
    ensures x == 0.0 <==> index == 0
  {
    index as real * PlanetSpacing * Direction(isRtl)
  }

  /** Distinct slots never coincide, and their order follows the index. */
  lemma PlacementOrdered(i: nat, j: nat, isRtl: bool)
    requires i < j
    ensures Direction(isRtl) * PlanetX(i, isRtl) < Direction(isRtl) * PlanetX(j, isRtl)
  {
  }

  // ---------------------------------------------------------------------
  // Selection state and handlers
  // ---------------------------------------------------------------------

  datatype Selection = Selection(
    selectedPlanet: Option<Planet>,
    isOrbitMode: bool,
    selectedPoi: Option<PointOfInterest>,
    isLockedOverlayOpen: bool,
    isParentalGateOpen: bool)

  const InitialSelection: Selection := Selection(None, false, None, false, false)

  /** The analytics events the handlers emit, with their payloads. */
  datatype AnalyticsEvent =
    | PlanetClicked(planet: string, locked: bool)
    | OrbitModeEntered(planet: string)
    | PoiDiscovered(poi: string, ofPlanet: Option<string>)
    | UnlockRequested(ofPlanet: Option<string>)
    | GateSuccess(ofPlanet: Option<string>)

  /** A handler's result: the next selection and the events it tracked, in order. */
  datatype Handled = Handled(next: Selection, tracked: seq<AnalyticsEvent>)

  /** `selectedPlanet?.id`. */
  function SelectedId(s: Selection): (r: Option<string>)
    ensures r.Some? <==> s.selectedPlanet.Some?
    ensures r.Some? ==> r.value == s.selectedPlanet.value.id
  {
    match s.selectedPlanet
    case None => None
    case Some(p) => Some(p.id)
  }

  /** Clicking a planet always selects it. A locked planet opens the locked
      overlay and leaves orbit mode as it was; an unlocked one enters orbit.
      Nothing prevents this while already in orbit. */
  function HandlePlanetClick(s: Selection, p: Planet): (h: Handled)
    ensures h.next.selectedPlanet == Some(p)
    ensures h.next.selectedPoi == s.selectedPoi
    ensures h.next.isParentalGateOpen == s.isParentalGateOpen
    ensures p.isLocked ==>
      && h.next.isLockedOverlayOpen
      && h.next.isOrbitMode == s.isOrbitMode
      && h.tracked == [PlanetClicked(p.id, true)]
    ensures !p.isLocked ==>
      && h.next.isOrbitMode
      && h.next.isLockedOverlayOpen == s.isLockedOverlayOpen
      && h.tracked == [PlanetClicked(p.id, false), OrbitModeEntered(p.id)]
  {
    var clicked := PlanetClicked(p.id, p.isLocked);
    if p.isLocked then
      Handled(s.(selectedPlanet := Some(p), isLockedOverlayOpen := true), [clicked])
    else
      Handled(s.(selectedPlanet := Some(p), isOrbitMode := true), [clicked, OrbitModeEntered(p.id)])
  }

  /** Clicking a point-of-interest marker selects it and records it against
      the selected planet. */
  function HandlePoiClick(s: Selection, poi: PointOfInterest): (h: Handled)
    ensures h.next.selectedPoi == Some(poi)
    ensures h.next.(selectedPoi := s.selectedPoi) == s
    ensures h.tracked == [PoiDiscovered(poi.id, SelectedId(s))]
  {
    Handled(s.(selectedPoi := Some(poi)), [PoiDiscovered(poi.id, SelectedId(s))])
  }

  /** Asking to unlock swaps the locked overlay for the parental gate. */
  function HandleUnlockRequest(s: Selection): (h: Handled)
    ensures !h.next.isLockedOverlayOpen && h.next.isParentalGateOpen
    ensures h.next.(isLockedOverlayOpen := s.isLockedOverlayOpen, isParentalGateOpen := s.isParentalGateOpen) == s
    ensures h.tracked == [UnlockRequested(SelectedId(s))]
  {
    Handled(s.(isLockedOverlayOpen := false, isParentalGateOpen := true), [UnlockRequested(SelectedId(s))])
  }

  /** A successful hold closes the gate and nothing else. */
  function HandleGateUnlock(s: Selection): (h: Handled)
    ensures !h.next.isParentalGateOpen
    ensures h.next.(isParentalGateOpen := s.isParentalGateOpen) == s
    ensures h.tracked == [GateSuccess(SelectedId(s))]
  {
    Handled(s.(isParentalGateOpen := false), [GateSuccess(SelectedId(s))])
  }

  /** The back button leaves orbit and clears the planet and the point of
      interest; the overlay flags are untouched and nothing is tracked. */
  function HandleBackToSystem(s: Selection): (h: Handled)
    ensures !h.next.isOrbitMode && h.next.selectedPlanet.None? && h.next.selectedPoi.None?
    ensures h.next.isLockedOverlayOpen == s.isLockedOverlayOpen
    ensures h.next.isParentalGateOpen == s.isParentalGateOpen
    ensures h.tracked == []
  {
    Handled(s.(isOrbitMode := false, selectedPlanet := None, selectedPoi := None), [])
  }

  /** "Keep playing" hides the locked overlay; the planet stays selected. */
  function DismissLockedOverlay(s: Selection): (h: Handled)
    ensures !h.next.isLockedOverlayOpen
    ensures h.next.(isLockedOverlayOpen := s.isLockedOverlayOpen) == s
    ensures h.tracked == []
  {
    Handled(s.(isLockedOverlayOpen := false), [])
  }

  /** The gate's cancel button closes the gate and nothing else. */
  function CloseGate(s: Selection): (h: Handled)
    ensures !h.next.isParentalGateOpen
    ensures h.next.(isParentalGateOpen := s.isParentalGateOpen) == s
    ensures h.tracked == []
  {
    Handled(s.(isParentalGateOpen := false), [])
  }

  /** The detail view's back action clears only the point of interest. */
  function ClosePoiDetail(s: Selection): (h: Handled)
    ensures h.next.selectedPoi.None?
    ensures h.next.(selectedPoi := s.selectedPoi) == s
    ensures h.tracked == []
  {
    Handled(s.(selectedPoi := None), [])
  }

  // ---------------------------------------------------------------------
  // What is on screen
  // ---------------------------------------------------------------------

  predicate LockedOverlayVisible(s: Selection)
  {
    s.isLockedOverlayOpen && s.selectedPlanet.Some?
  }

  predicate PoiDetailVisible(s: Selection)
  {
    s.selectedPoi.Some? && s.selectedPlanet.Some? && !s.isParentalGateOpen
  }

  predicate BackButtonVisible(s: Selection)
  {
    s.isOrbitMode
  }

  /** The locked overlay, the detail view and the gate each cover the whole
      screen above the scene and the top bar. */
  predicate ModalVisible(s: Selection)
  {
    LockedOverlayVisible(s) || PoiDetailVisible(s) || s.isParentalGateOpen
  }

  /** The point-of-interest markers of `planet` are shown only while orbiting
      that very planet; the sun is drawn without markers. */
  predicate ScannerVisible(s: Selection, planet: Planet)
  {
    && s.isOrbitMode
    && SelectedId(s) == Some(planet.id)
    && planet.pointsOfInterest.Some?
    && !Planet3D.IsSun(Planet3D.PlanetKey(planet))
  }

  // ---------------------------------------------------------------------
  // Selected planet index and the camera rig's inputs
  // ---------------------------------------------------------------------

  /** `planets.findIndex(p => p.id === id)`: the first index with that id,
      or -1 when there is none. */
  function FindIndex(planets: seq<Planet>, id: string): (i: int)
    ensures -1 <= i < |planets|
    ensures i == -1 <==> forall k :: 0 <= k < |planets| ==> planets[k].id != id
    ensures 0 <= i ==> planets[i].id == id
    ensures 0 <= i ==> forall k :: 0 <= k < i ==> planets[k].id != id
    decreases |planets|
  {
    if |planets| == 0 then -1
    else if planets[0].id == id then 0
    else
      var r := FindIndex(planets[1..], id);
      if r == -1 then -1 else r + 1
  }

  /** The rig's target index: absent exactly when no planet is selected. */
  function SelectedPlanetIndex(planets: seq<Planet>, s: Selection): (r: Option<int>)
    ensures r.None? <==> s.selectedPlanet.None?
    ensures r.Some? ==> -1 <= r.value < |planets|
    ensures r.Some? && s.selectedPlanet.value in planets ==>
      && 0 <= r.value
      && planets[r.value].id == s.selectedPlanet.value.id
      && forall k :: 0 <= k < r.value ==> planets[k].id != s.selectedPlanet.value.id
  {
    match s.selectedPlanet
    case None => None
    case Some(p) => Some(FindIndex(planets, p.id))
  }

  /** The props the controller hands the camera rig. */
  function RigPropsOf(planets: seq<Planet>, s: Selection, locale: string): (r: CameraRig.RigProps)
    ensures r.planetCount == |planets| && r.planetSpacing == PlanetSpacing
    ensures r.isRtl <==> IsRtlLocale(locale)
    ensures r.targetPlanetIndex == SelectedPlanetIndex(planets, s)
    ensures r.isZoomed == s.isOrbitMode && r.viewMode == CameraRig.LineUp
  {
    CameraRig.RigProps(|planets|, PlanetSpacing, IsRtlLocale(locale), SelectedPlanetIndex(planets, s), s.isOrbitMode, CameraRig.LineUp)
  }

  // ---------------------------------------------------------------------
  // The composed application
  // ---------------------------------------------------------------------

  /** The controller's state, the parental gate's state and the analytics
      events tracked so far, over the fixed list of planets. */
  datatype App = App(planets: seq<Planet>, ui: Selection, gate: PG.Gate, trace: seq<AnalyticsEvent>)

  function Mount(planets: seq<Planet>): App
  {
    App(planets, InitialSelection, PG.InitialGate, [])
  }

  /** Every input the application reacts to. `ClickPlanet` is a click that
      the planet's own tap/drag rule let through. */
  datatype Input =
    | ClickPlanet(planet: Planet)
    | ClickPoi(poi: PointOfInterest)
    | RequestUnlock
    | KeepPlaying
    | BackToSystem
    | ClosePoi
    | CancelGate
    | PressGate
    | ReleaseGate
    | GateTick

  /** The handler a controller input runs; gate inputs leave the selection alone. */
  function HandleUi(s: Selection, e: Input): Handled
  {
    match e
    case ClickPlanet(p) => HandlePlanetClick(s, p)
    case ClickPoi(poi) => HandlePoiClick(s, poi)
    case RequestUnlock => HandleUnlockRequest(s)
    case KeepPlaying => DismissLockedOverlay(s)
    case BackToSystem => HandleBackToSystem(s)
    case ClosePoi => ClosePoiDetail(s)
    case CancelGate => CloseGate(s)
    case _ => Handled(s, [])
  }

  /** Commit a handler's result at clock reading `now`. A changed selection
      re-renders the controller, which hands the gate a fresh `onUnlock`
      callback and so restarts a held press. */
  function Commit(a: App, h: Handled, gate: PG.Gate, now: real): (r: App)
    ensures r.planets == a.planets && r.ui == h.next
    ensures r.trace == a.trace + h.tracked
    ensures r.gate.isPressing == gate.isPressing && r.gate.progress == gate.progress
    ensures gate.isPressing && h.next != a.ui ==> r.gate.startTime == now
    ensures h.next == a.ui ==> r.gate == gate
  {
    var g := if h.next != a.ui then PG.CallbackChanged(gate, now) else gate;
    App(a.planets, h.next, g, a.trace + h.tracked)
  }

  /** One input at clock reading `now`. A gate tick that unlocks calls the
      controller's gate-success handler. */
  function Step(a: App, e: Input, now: real): (r: App)
    ensures r.planets == a.planets
    ensures |a.trace| <= |r.trace| && r.trace[..|a.trace|] == a.trace
    ensures !e.GateTick? && !e.PressGate? && !e.ReleaseGate? ==>
      r.ui == HandleUi(a.ui, e).next && r.trace == a.trace + HandleUi(a.ui, e).tracked
    ensures e.PressGate? || e.ReleaseGate? ==> r.ui == a.ui && r.trace == a.trace
    ensures e == GateTick && a.gate.isPressing && now - a.gate.startTime >= PG.RequiredTime ==>
      && !r.ui.isParentalGateOpen
      && !r.gate.isPressing && r.gate.progress == 0.0
      && r.trace == a.trace + [GateSuccess(SelectedId(a.ui))]
    ensures e == GateTick && !(a.gate.isPressing && now - a.gate.startTime >= PG.RequiredTime) ==>
      r.ui == a.ui && r.trace == a.trace
    ensures e.PressGate? ==> r.gate == PG.Press(a.gate, now)
    ensures e.ReleaseGate? ==> r.gate == PG.Release(a.gate)
    ensures e.GateTick? ==> r.gate == PG.Tick(a.gate, now).gate
    ensures !e.GateTick? && !e.PressGate? && !e.ReleaseGate? ==>
      r.gate == (if HandleUi(a.ui, e).next != a.ui then PG.CallbackChanged(a.gate, now) else a.gate)
  {
    match e
    case PressGate => Commit(a, Handled(a.ui, []), PG.Press(a.gate, now), now)
    case ReleaseGate => Commit(a, Handled(a.ui, []), PG.Release(a.gate), now)
    case GateTick =>
      var t := PG.Tick(a.gate, now);
      var h := if t.unlocked then HandleGateUnlock(a.ui) else Handled(a.ui, []);
      Commit(a, h, t.gate, now)
    case _ => Commit(a, HandleUi(a.ui, e), a.gate, now)
  }

  /** Opening or closing the gate changes neither the hold nor its progress. */
  lemma GateVisibilityLeavesHoldAlone(a: App, e: Input, now: real)
    requires e == RequestUnlock || e == CancelGate
    ensures Step(a, e, now).ui.isParentalGateOpen == (e == RequestUnlock)
    ensures Step(a, e, now).gate.isPressing == a.gate.isPressing
    ensures Step(a, e, now).gate.progress == a.gate.progress
  {
  }

  /** The controls a rendered screen offers for each input, read off the
      markup's conditions. A gate tick exists only while an interval runs,
      which is while the button is held. */
  predicate ControlRendered(a: App, e: Input)
  {
    match e
    case ClickPlanet(p) => p in a.planets
    case ClickPoi(poi) =>
      exists pl :: pl in a.planets && ScannerVisible(a.ui, pl) && poi in pl.pointsOfInterest.value
    case RequestUnlock => LockedOverlayVisible(a.ui)
    case KeepPlaying => LockedOverlayVisible(a.ui)
    case BackToSystem => BackButtonVisible(a.ui)
    case ClosePoi => PoiDetailVisible(a.ui)
    case CancelGate => a.ui.isParentalGateOpen
    case PressGate => a.ui.isParentalGateOpen
    case ReleaseGate => a.ui.isParentalGateOpen
    case GateTick => a.gate.isPressing
  }

  /** Inputs aimed at the scene or the top bar. */
  predicate UnderModals(e: Input)
  {
    e.ClickPlanet? || e.ClickPoi? || e.BackToSystem?
  }

  /** A rendered control that is also not covered by a full-screen overlay. */
  predicate Enabled(a: App, e: Input)
  {
    ControlRendered(a, e) && (UnderModals(e) ==> !ModalVisible(a.ui))
  }
}

=== FILE: solarsystemruns.dfy ===
/** Runs of the composed application from mount: the invariants every
    reachable screen satisfies, the analytics trace's shape, how the camera
    follows the selection, and three concrete runs that show what the
    controller does NOT guarantee. */
module SolarSystemRuns {
  import opened Prelude
  import opened Content
  import CameraRig
  import PG = ParentalGate
  import opened SolarSystem

  /** An input together with the clock reading at which it happens. */
  datatype Timed = Timed(input: Input, now: real)

  function RunApp(a: App, ins: seq<Timed>): App
    decreases |ins|
  {
    if |ins| == 0 then a else RunApp(Step(a, ins[0].input, ins[0].now), ins[1..])
  }

  /** Clock readings never run backwards, starting from `clock`. */
  predicate Chronological(clock: real, ins: seq<Timed>)
    decreases |ins|
  {
    |ins| == 0 || (clock <= ins[0].now && Chronological(ins[0].now, ins[1..]))
  }

  /** The clock reading after a run. */
  function LastTime(clock: real, ins: seq<Timed>): real
  {
    if |ins| == 0 then clock else ins[|ins| - 1].now
  }

  /** Every input of the run had its control on screen. */
  predicate RenderedRun(a: App, ins: seq<Timed>)
    decreases |ins|
  {
    |ins| == 0 || (ControlRendered(a, ins[0].input) && RenderedRun(Step(a, ins[0].input, ins[0].now), ins[1..]))
  }

  /** Every input of the run had its control on screen and uncovered. */
  predicate EnabledRun(a: App, ins: seq<Timed>)
    decreases |ins|
  {
    |ins| == 0 || (Enabled(a, ins[0].input) && EnabledRun(Step(a, ins[0].input, ins[0].now), ins[1..]))
  }

  // ---------------------------------------------------------------------
  // Invariants
  // ---------------------------------------------------------------------

  /** Every `orbit_mode_entered` event directly follows an unlocked
      `planet_clicked` event for the same planet. */
  predicate TraceWellFormed(t: seq<AnalyticsEvent>)
  {
    forall i :: 0 <= i < |t| && t[i].OrbitModeEntered? ==> 0 < i && t[i - 1] == PlanetClicked(t[i].planet, false)
  }

  /** A handler's events are well formed on their own and do not start with
      an orbit event, so they can be appended to any well-formed trace. */
  predicate Appendable(u: seq<AnalyticsEvent>)
  {
    TraceWellFormed(u) && (|u| > 0 ==> !u[0].OrbitModeEntered?)
  }

  lemma AppendKeepsWellFormed(t: seq<AnalyticsEvent>, u: seq<AnalyticsEvent>)
    requires TraceWellFormed(t) && Appendable(u)
    ensures TraceWellFormed(t + u)
  {
    var w := t + u;
    forall i | 0 <= i < |w| && w[i].OrbitModeEntered?
      ensures 0 < i && w[i - 1] == PlanetClicked(w[i].planet, false)
    {
      if i < |t| {
        assert w[i] == t[i] && w[i - 1] == t[i - 1];
      } else {
        assert w[i] == u[i - |t|];
        assert i - |t| > 0;
        assert w[i - 1] == u[i - 1 - |t|];
      }
    }
  }

  /** Every handler emits an appendable list of events. */
  lemma HandlersEmitAppendable(a: App, e: Input, now: real)
    ensures Appendable(Step(a, e, now).trace[|a.trace|..])
  {
    var r := Step(a, e, now);
    var u := r.trace[|a.trace|..];
    assert r.trace == a.trace + u;
  }

  /** What holds in every screen reached through rendered controls. */
  predicate CoreInvariant(a: App, clock: real)
  {
    && (a.ui.selectedPoi.Some? ==> a.ui.isOrbitMode)
    && (a.ui.isOrbitMode ==> a.ui.selectedPlanet.Some?)
    && (a.ui.selectedPlanet.Some? ==> a.ui.selectedPlanet.value in a.planets)
    && PG.GateInvariant(a.gate, clock)
    && TraceWellFormed(a.trace)
  }

  /** A selected point of interest belongs to a planet with the selected id. */
  predicate PoiOfSelectedPlanet(a: App)
  {
    a.ui.selectedPoi.Some? ==>
      exists pl :: pl in a.planets && Some(pl.id) == SelectedId(a.ui)
                && pl.pointsOfInterest.Some? && a.ui.selectedPoi.value in pl.pointsOfInterest.value
  }

  /** What additionally holds when overlays block the controls beneath them. */
  predicate ScreenInvariant(a: App)
  {
    && !(a.ui.isLockedOverlayOpen && a.ui.isParentalGateOpen)
    && PoiOfSelectedPlanet(a)
  }

  lemma MountInvariant(planets: seq<Planet>, clock: real)
    ensures CoreInvariant(Mount(planets), clock) && ScreenInvariant(Mount(planets))
  {
  }

  lemma StepKeepsCore(a: App, clock: real, e: Input, now: real)
    requires CoreInvariant(a, clock)
    requires ControlRendered(a, e)
    requires clock <= now
    ensures CoreInvariant(Step(a, e, now), now)
  {
    var r := Step(a, e, now);
    HandlersEmitAppendable(a, e, now);
    assert r.trace == a.trace + r.trace[|a.trace|..];
    AppendKeepsWellFormed(a.trace, r.trace[|a.trace|..]);
    if e.GateTick? {
      var t := PG.Tick(a.gate, now);
      assert PG.GateInvariant(t.gate, now);
    }
  }

  lemma StepKeepsScreen(a: App, clock: real, e: Input, now: real)
    requires CoreInvariant(a, clock) && ScreenInvariant(a)
    requires Enabled(a, e)
    requires clock <= now
    ensures ScreenInvariant(Step(a, e, now))
  {
    var r := Step(a, e, now);
    match e
    case ClickPlanet(p) =>
      assert a.ui.selectedPoi.None?;
    case ClickPoi(poi) =>
      var pl :| pl in a.planets && ScannerVisible(a.ui, pl) && poi in pl.pointsOfInterest.value;
      assert Some(pl.id) == SelectedId(r.ui);
    case _ =>
  }

  lemma {:induction false} RenderedRunKeepsCore(a: App, clock: real, ins: seq<Timed>)
    requires CoreInvariant(a, clock)
    requires RenderedRun(a, ins) && Chronological(clock, ins)
    ensures CoreInvariant(RunApp(a, ins), LastTime(clock, ins))
    decreases |ins|
  {
    if |ins| > 0 {
      StepKeepsCore(a, clock, ins[0].input, ins[0].now);
      RenderedRunKeepsCore(Step(a, ins[0].input, ins[0].now), ins[0].now, ins[1..]);
      assert LastTime(ins[0].now, ins[1..]) == LastTime(clock, ins);
    }
  }

  /** An enabled input is in particular a rendered one. */
  lemma {:induction false} EnabledRunIsRendered(a: App, ins: seq<Timed>)
    requires EnabledRun(a, ins)
    ensures RenderedRun(a, ins)
    decreases |ins|
  {
    if |ins| > 0 {
      EnabledRunIsRendered(Step(a, ins[0].input, ins[0].now), ins[1..]);
    }
  }

  lemma {:induction false} EnabledRunKeepsScreen(a: App, clock: real, ins: seq<Timed>)
    requires CoreInvariant(a, clock) && ScreenInvariant(a)
    requires EnabledRun(a, ins) && Chronological(clock, ins)
    ensures ScreenInvariant(RunApp(a, ins))
    decreases |ins|
  {
    if |ins| > 0 {
      StepKeepsScreen(a, clock, ins[0].input, ins[0].now);
      StepKeepsCore(a, clock, ins[0].input, ins[0].now);
      EnabledRunKeepsScreen(Step(a, ins[0].input, ins[0].now), ins[0].now, ins[1..]);
    }
  }

  /** From mount, through any sequence of on-screen controls: a point of
      interest is only ever selected in orbit, orbit always has a planet from
      the list, gate progress stays in [0, 100) and is 0 when idle, and every
      orbit event follows its unlocked click. */
  lemma RenderedRunsFromMount(planets: seq<Planet>, clock: real, ins: seq<Timed>)
    requires RenderedRun(Mount(planets), ins) && Chronological(clock, ins)
    ensures var f := RunApp(Mount(planets), ins);
      && (f.ui.selectedPoi.Some? ==> f.ui.isOrbitMode && f.ui.selectedPlanet.Some?)
      && (f.ui.selectedPlanet.Some? ==> f.ui.selectedPlanet.value in planets)
      && 0.0 <= f.gate.progress < 100.0
      && (!f.gate.isPressing ==> f.gate.progress == 0.0)
      && TraceWellFormed(f.trace)
  {
    MountInvariant(planets, clock);
    RenderedRunKeepsCore(Mount(planets), clock, ins);
    RunKeepsPlanets(Mount(planets), ins);
  }

  lemma {:induction false} RunKeepsPlanets(a: App, ins: seq<Timed>)
    ensures RunApp(a, ins).planets == a.planets
    decreases |ins|
  {
    if |ins| > 0 {
      RunKeepsPlanets(Step(a, ins[0].input, ins[0].now), ins[1..]);
    }
  }

  /** When the full-screen overlays block what lies beneath them, the locked
      overlay and the gate are never open together, and a selected point of
      interest belongs to the selected planet; everything a rendered run keeps
      holds as well. */
  lemma EnabledRunsFromMount(planets: seq<Planet>, clock: real, ins: seq<Timed>)
    requires EnabledRun(Mount(planets), ins) && Chronological(clock, ins)
    ensures var f := RunApp(Mount(planets), ins);
      && !(f.ui.isLockedOverlayOpen && f.ui.isParentalGateOpen)
      && PoiOfSelectedPlanet(f)
      && (f.ui.selectedPoi.Some? ==> f.ui.isOrbitMode && f.ui.selectedPlanet.Some?)
      && (f.ui.selectedPlanet.Some? ==> f.ui.selectedPlanet.value in planets)
      && 0.0 <= f.gate.progress < 100.0
      && (!f.gate.isPressing ==> f.gate.progress == 0.0)
      && TraceWellFormed(f.trace)
  {
    EnabledRunIsRendered(Mount(planets), ins);
    RenderedRunsFromMount(planets, clock, ins);
    MountInvariant(planets, clock);
    EnabledRunKeepsScreen(Mount(planets), clock, ins);
  }

  /** The analytics list only ever grows at its end. */
  lemma {:induction false} TraceAppendOnly(a: App, ins: seq<Timed>)
    ensures |a.trace| <= |RunApp(a, ins).trace|
    ensures RunApp(a, ins).trace[..|a.trace|] == a.trace
    decreases |ins|
  {
    if |ins| > 0 {
      var b := Step(a, ins[0].input, ins[0].now);
      TraceAppendOnly(b, ins[1..]);
      assert RunApp(a, ins).trace[..|b.trace|] == b.trace;
      assert b.trace[..|a.trace|] == a.trace;
    }
  }

  // ---------------------------------------------------------------------
  // The camera follows the selection
  // ---------------------------------------------------------------------

  /** In orbit the camera aims at the slot of the selected planet, the first
      one in the list with its id, laid out in the locale's direction. */
  lemma OrbitCameraFramesSelectedPlanet(a: App, clock: real, offset: real, locale: string)
    requires CoreInvariant(a, clock) && a.ui.isOrbitMode
    ensures var i := FindIndex(a.planets, a.ui.selectedPlanet.value.id);
      && 0 <= i < |a.planets|
      && a.planets[i].id == a.ui.selectedPlanet.value.id
      && CameraRig.DesiredTarget(RigPropsOf(a.planets, a.ui, locale), offset)
         == CameraRig.Target(PlanetX(i, IsRtlLocale(locale)), CameraRig.OrbitZ)
  {
  }

  /** Outside orbit the scroll range runs from the first planet's slot to the
      last planet's slot; with two or more planets the far end lies left of
      the origin exactly for a right-to-left locale. */
  lemma OverviewCameraSpansPlanets(planets: seq<Planet>, s: Selection, locale: string)
    requires !s.isOrbitMode && |planets| >= 1
    ensures CameraRig.DesiredTarget(RigPropsOf(planets, s, locale), 0.0).x == PlanetX(0, IsRtlLocale(locale))
    ensures CameraRig.DesiredTarget(RigPropsOf(planets, s, locale), 1.0).x
         == PlanetX(|planets| - 1, IsRtlLocale(locale))
    ensures CameraRig.DesiredTarget(RigPropsOf(planets, s, locale), 0.0).z == CameraRig.SystemZ
    ensures |planets| >= 2 ==>
      (CameraRig.DesiredTarget(RigPropsOf(planets, s, locale), 1.0).x < 0.0 <==> locale == "he" || locale == "ar")
  {
  }

  // ---------------------------------------------------------------------
  // What the controller does not guarantee
  // ---------------------------------------------------------------------

  /** Reachable from mount through uncovered controls, with clock readings
      from 0 on. */
  ghost predicate Reachable(a: App)
  {
    exists ins :: EnabledRun(Mount(a.planets), ins) && Chronological(0.0, ins) && RunApp(Mount(a.planets), ins) == a
  }

  const Sample: PointOfInterest := PointOfInterest("crater", "Crater", (0.0, 1.0, 0.0), "A big crater")
  const Earth: Planet := Planet("earth", "E", "#3b82f6", "Planets.earth", false, [], None)
  const Pluto: Planet := Planet("pluto", "P", "#a8a29e", "Planets.pluto", true, [], Some([Sample]))

  /** Orbit is not limited to unlocked planets: clicking a locked planet while
      orbiting another keeps orbit mode on, and after "keep playing" the locked
      planet's markers are on screen with no overlay in the way. */
  lemma OrbitOnLockedPlanetIsReachable()
    ensures exists a :: Reachable(a) && a.ui.isOrbitMode && a.ui.selectedPlanet == Some(Pluto)
                     && Pluto.isLocked && ScannerVisible(a.ui, Pluto) && !ModalVisible(a.ui)
  {
    var planets := [Earth, Pluto];
    var ins := [Timed(ClickPlanet(Earth), 0.0), Timed(ClickPlanet(Pluto), 1.0), Timed(KeepPlaying, 2.0)];
    var a0 := Mount(planets);
    var a1 := Step(a0, ClickPlanet(Earth), 0.0);
    var a2 := Step(a1, ClickPlanet(Pluto), 1.0);
    var a3 := Step(a2, KeepPlaying, 2.0);
    assert Enabled(a0, ClickPlanet(Earth));
    assert Enabled(a1, ClickPlanet(Pluto));
    assert Enabled(a2, KeepPlaying);
    assert EnabledRun(a3, ins[3..]);
    assert EnabledRun(a2, ins[2..]);
    assert EnabledRun(a1, ins[1..]);
    assert EnabledRun(a0, ins);
    assert Chronological(2.0, ins[3..]);
    assert Chronological(1.0, ins[2..]);
    assert Chronological(0.0, ins[1..]);
    assert Chronological(0.0, ins);
    assert RunApp(a3, ins[3..]) == a3;
    assert RunApp(a2, ins[2..]) == a3;
    assert RunApp(a1, ins[1..]) == a3;
    assert RunApp(a0, ins) == a3;
    assert Reachable(a3);
  }

  /** Click the locked planet, ask to unlock, hold the button, then cancel
      the gate with the press still held. */
  const CancelledHold: seq<Timed> := [Timed(ClickPlanet(Pluto), 0.0), Timed(RequestUnlock, 1.0),
                                      Timed(PressGate, 2.0), Timed(CancelGate, 3.0)]

  /** The state `CancelledHold` ends in: gate hidden, press held since the
      cancel (the re-render restarted its clock). */
  const AfterCancelledHold: App :=
    App([Pluto], Selection(Some(Pluto), false, None, false, false), PG.Gate(true, 0.0, 3.0),
        [PlanetClicked("pluto", true), UnlockRequested(Some("pluto"))])

  lemma CancelledHoldReachable()
    ensures Reachable(AfterCancelledHold)
  {
    var ins := CancelledHold;
    var a0 := Mount([Pluto]);
    var a1 := Step(a0, ClickPlanet(Pluto), 0.0);
    var a2 := Step(a1, RequestUnlock, 1.0);
    var a3 := Step(a2, PressGate, 2.0);
    var a4 := Step(a3, CancelGate, 3.0);
    assert a4 == AfterCancelledHold;
    assert EnabledRun(a4, ins[4..]);
    assert Enabled(a3, CancelGate) && EnabledRun(a3, ins[3..]);
    assert Enabled(a2, PressGate) && EnabledRun(a2, ins[2..]);
    assert Enabled(a1, RequestUnlock) && EnabledRun(a1, ins[1..]);
    assert Enabled(a0, ClickPlanet(Pluto)) && EnabledRun(a0, ins);
    assert Chronological(3.0, ins[4..]);
    assert Chronological(2.0, ins[3..]);
    assert Chronological(1.0, ins[2..]);
    assert Chronological(0.0, ins[1..]);
    assert Chronological(0.0, ins);
    assert RunApp(a4, ins[4..]) == a4;
    assert RunApp(a3, ins[3..]) == a4;
    assert RunApp(a2, ins[2..]) == a4;
    assert RunApp(a1, ins[1..]) == a4;
    assert RunApp(a0, ins) == a4;
  }

  /** Closing the gate does not end a press that is still held: the interval
      keeps running with the gate hidden, and a later tick still reports gate
      success. */
  lemma ClosedGateStillUnlocks()
    ensures exists a :: Reachable(a) && !a.ui.isParentalGateOpen && a.gate.isPressing
                     && Enabled(a, GateTick)
                     && Step(a, GateTick, a.gate.startTime + PG.RequiredTime).trace
                        == a.trace + [GateSuccess(Some(Pluto.id))]
  {
    CancelledHoldReachable();
    var a := AfterCancelledHold;
    assert !a.ui.isParentalGateOpen && a.gate.isPressing;
    assert Enabled(a, GateTick);
    var t := PG.Tick(a.gate, a.gate.startTime + PG.RequiredTime);
    assert t.unlocked;
    assert Step(a, GateTick, a.gate.startTime + PG.RequiredTime).trace == a.trace + [GateSuccess(Some(Pluto.id))];
    assert Reachable(a) && !a.ui.isParentalGateOpen && a.gate.isPressing && Enabled(a, GateTick)
        && Step(a, GateTick, a.gate.startTime + PG.RequiredTime).trace == a.trace + [GateSuccess(Some(Pluto.id))];
  }

  /** Overlay exclusion rests on the gate covering the scene: a planet click
      that reached the scene while the gate is open would leave both the
      locked overlay and the gate open. */
  lemma OverlaysClashWithoutModalCover()
    ensures exists a :: Reachable(a) && ControlRendered(a, ClickPlanet(Pluto))
                     && !Enabled(a, ClickPlanet(Pluto))
                     && Step(a, ClickPlanet(Pluto), 2.0).ui.isLockedOverlayOpen
                     && Step(a, ClickPlanet(Pluto), 2.0).ui.isParentalGateOpen
  {
    var planets := [Pluto];
    var ins := [Timed(ClickPlanet(Pluto), 0.0), Timed(RequestUnlock, 1.0)];
    var a0 := Mount(planets);
    var a1 := Step(a0, ClickPlanet(Pluto), 0.0);
    var a2 := Step(a1, RequestUnlock, 1.0);
    assert Enabled(a0, ClickPlanet(Pluto));
    assert Enabled(a1, RequestUnlock);
    assert EnabledRun(a2, ins[2..]);
    assert EnabledRun(a1, ins[1..]);
    assert EnabledRun(a0, ins);
    assert Chronological(0.0, ins);
    assert RunApp(a2, ins[2..]) == a2;
    assert RunApp(a1, ins[1..]) == a2;
    assert RunApp(a0, ins) == a2;
    assert Reachable(a2);
  }
}
